=== FILE: README.md ===
# Shark tracking pipeline and API — a Dafny model

This project models the record-handling core of a shark-tracking system in
Dafny. The system has a Python preprocessing and export pipeline, an S3
listing Lambda, and a small web API. The model covers the following:

- **Preprocessing** (`Preprocess`, preprocess_data.py):
  - shark observations get PACE dates round-robin over the sorted dates;
  - each shark's track becomes one movement row per consecutive pair of
    observations, for sharks with at least three observations;
  - the movement frame is cut down to the first `max_sharks` sharks;
  - each row's environmental reading is taken at its PACE date (or the
    nearest available one) and clamped to a fixed range per variable.
- **Exports** (`ExportForaging`, export_foraging_areas.py):
  - the detailed export adds flags, a confidence and a speed bucket per row;
  - the hotspot summary keeps only foraging rows, bins them on a 0.1 degree
    grid, aggregates every bin and sorts the bins by foraging intensity.
- **PACE file names** (`PaceFileNames`, inspect_all_pace_files.py): the
  readable acquisition time derived from a granule file name.
- **S3 listing Lambda** (`S3ListLambda`, s3_list_lambda.py):
  - the bucket check;
  - the choice among three credential sources;
  - the fallback chain of each credential field;
  - the flattening of paginated listings;
  - the status code of every outcome.
- **API** (`SharkApi`, app/api/main.py):
  - loading the tracking GeoJSON into records;
  - grouping pings by shark;
  - the bounds checks, truncation and zoom hint of the analysis endpoint.
- **Database URL** (`DbConfig`, app/api/config.py): the MongoDB connection
  string, with the password encoded as by `urllib.parse.quote_plus`. That
  encoding is UTF-8 (section 3 of RFC 3629), then percent-encoding of every
  byte outside the unreserved set (sections 2.1 and 2.3 of RFC 3986), with
  space as '+'.

Helper modules:

- `Wrappers`: `Option`, and `Outcome` for an outside call that returns or
  raises.
- `Json`: scalar JSON values with Python truthiness and `str()`.
- `Seqs`: projection, filtering, first-appearance de-duplication, one-pass
  grouping and their lemmas.

Outside calls enter as function parameters: numerics, randomness, NetCDF
contents, boto3, Secrets Manager, the OAuth exchange, the language model
and the geometry library's `within`. Files are not modelled. Times are
whole seconds since the epoch. Real numbers stand for floats.

`DbConfig.UnquotePlus` and `DbConfig.ParseDatabaseUrl` do not model source
functions. They are strict inverses written so that the encoding and the
URL can be shown to lose nothing.

## Model

| member | source | states |
|---|---|---|
| Preprocess.SortedDates | predictive_model/py_files/preprocess_data.py:125 | `sorted` of the PACE dates: ascending and a permutation of the keys |
| Preprocess.Insert | predictive_model/py_files/preprocess_data.py:125 | one insertion step of the sort keeps the order and adds exactly one occurrence of the date |
| Preprocess.MapSharkToPaceDates | predictive_model/py_files/preprocess_data.py:123-144 | the loop yields row i with the (i mod n)-th smallest PACE date; the old time is kept as `original_datetime` |
| Preprocess.RoundRobinRows | predictive_model/py_files/preprocess_data.py:130-143 | as many rows as input, in input order; id and position kept; `original_datetime` is the old time; `datetime` equals `pace_date`, which is one of the PACE keys |
| Preprocess.RoundRobinPeriodic | predictive_model/py_files/preprocess_data.py:132-134 | the assigned dates repeat with period n, the number of PACE dates |
| Preprocess.RoundRobinFirstCycle | predictive_model/py_files/preprocess_data.py:125-134 | the first n rows get the dates in ascending order |
| Preprocess.DayDifference | predictive_model/py_files/preprocess_data.py:152 | `abs(timedelta.days)`: the number of whole days elapsed for a later date, and the days rounded up for an earlier one (`.days` rounds toward negative infinity) |
| Preprocess.RoundRobinDetermined | predictive_model/py_files/preprocess_data.py:123-144 | the round-robin mapping leaves no choice: the mapped frame is determined by the rows and the dates |
| Preprocess.ClosestIndex | predictive_model/py_files/preprocess_data.py:151-152 | `min(..., key=abs(days))`: an index of least day difference, and no earlier index is as near (first minimum wins) |
| Preprocess.ResolvePaceDate | predictive_model/py_files/preprocess_data.py:149-155 | a date that is a key is used unchanged; otherwise an available date of minimal absolute day difference is used |
| Preprocess.Clip | predictive_model/py_files/preprocess_data.py:223-228 | `np.clip`: result within [lo, hi], equal to x inside, the nearer bound outside |
| Preprocess.ClipReading | predictive_model/py_files/preprocess_data.py:222-228 | every variable within its range (chlor_a [0.05, 5], carbon_phyto [5, 300], poc [20, 500], sst [10, 32], water_depth [-6000, -10], eddy_speed [0, 2]); a reading already in range is unchanged |
| Preprocess.ExtractPaceEnvironmentalData | predictive_model/py_files/preprocess_data.py:147-230 | the reading is the clamped model output for the resolved date (the requested date when it is a key, else a nearest key), so always within bounds; when the requested date is available and its output is in range, the reading is that output unchanged |
| Preprocess.Step | predictive_model/py_files/preprocess_data.py:243-275 | a step row carries the current (not the previous) observation's id, position and times; turning angle 0 on a shark's first step; speed 0 when the time difference is not positive, otherwise speed × elapsed time = step length × one day |
| Preprocess.StepsUpTo | predictive_model/py_files/preprocess_data.py:243-277 | the inner loop's rows so far: n − 1 rows, row j being the step to observation j + 1 |
| Preprocess.SharkSteps | predictive_model/py_files/preprocess_data.py:239-243 | fewer than 3 observations give no rows; n ≥ 3 give exactly n − 1 rows, one per consecutive pair |
| Preprocess.SharkStepRows | predictive_model/py_files/preprocess_data.py:239-277 | the inner loop builds exactly a shark's step rows |
| Preprocess.CalculateMovementFeatures | predictive_model/py_files/preprocess_data.py:233-279 | the outer loop builds the movement frame: each shark's step rows, sharks in order of first appearance |
| Preprocess.StepsForSelect | predictive_model/py_files/preprocess_data.py:238-243 | the rows of one shark in the frame are exactly its own steps, and none for an unlisted shark |
| Preprocess.MovementRowsOfShark | predictive_model/py_files/preprocess_data.py:238-243 | per shark: no rows with fewer than 3 observations, n − 1 rows with n ≥ 3 |
| Preprocess.StepsForMembers | predictive_model/py_files/preprocess_data.py:238-266 | every row of the frame belongs to one of the listed sharks |
| Preprocess.StepsForOrder | predictive_model/py_files/preprocess_data.py:238-279 | sharks listed by first appearance give rows in order of their shark's first appearance |
| Preprocess.StepsOfShark | predictive_model/py_files/preprocess_data.py:265-266 | every step row of a shark's track carries that shark's id |
| Preprocess.MovementGroupedByFirstAppearance | predictive_model/py_files/preprocess_data.py:238-279 | the frame is grouped by shark, groups in order of each shark's first appearance in the input |
| Preprocess.TrackDates | predictive_model/py_files/preprocess_data.py:239-270 | each step row's `pace_date` is the `pace_date` of an input row |
| Preprocess.StepsForDates | predictive_model/py_files/preprocess_data.py:238-270 | every movement row's `pace_date` comes from the mapped input |
| Preprocess.SelectedSharks | predictive_model/py_files/preprocess_data.py:307-308 | `unique()[:max_sharks]`: the first `max_sharks` distinct sharks in order of appearance, no duplicates; all sharks when `max_sharks` is 0 (falsy) |
| Preprocess.LimitSharks | predictive_model/py_files/preprocess_data.py:307-309 | with `max_sharks` 0 the frame is unchanged; otherwise only rows of selected sharks remain, and no row is added |
| Preprocess.LimitSharksPerShark | predictive_model/py_files/preprocess_data.py:307-309 | the `isin` mask keeps each selected shark's rows in their order and with their multiplicity, and none of any other shark |
| Preprocess.LimitSharksRows | predictive_model/py_files/preprocess_data.py:307-309 | a row survives the `isin` filter exactly when it is a movement row of a selected shark |
| Preprocess.AddEnvironmentalData | predictive_model/py_files/preprocess_data.py:312-317 | one enriched row per movement row, in order, each with the clamped reading for its own position and PACE date |
| Preprocess.PreprocessSharkData | predictive_model/py_files/preprocess_data.py:282-325 | `None` exactly when no PACE data was loaded; KeyError 'id' exactly for an empty sample; KeyError 'shark_id' exactly when `max_sharks` is set and no shark has 3 observations; no other exception; otherwise the rows are the limited movement rows in order, each with a loaded PACE date and the clamped output of its own draws for that date (the nearest-date fallback never fires) |
| Preprocess.LoadedDates | predictive_model/py_files/preprocess_data.py:301-317 | every row that survives the shark limit carries one of the PACE dates |
| SharkApi.MakeRecord | app/api/main.py:45-49 | the record holds `shark_id`, `geometry` and every property; a property with the same key overrides `shark_id` or `geometry` |
| SharkApi.Accepted | app/api/main.py:42-43 | the filter of the loop: a truthy shark id, a non-empty geometry and coordinates in it (no contract: a definition) |
| SharkApi.LoadSharkData | app/api/main.py:29-58 | the loops collect the records of the accepted features in order; the frame is empty exactly when no feature has a truthy shark id, a geometry and coordinates |
| SharkApi.RecordsEmpty | app/api/main.py:52-53 | no record is produced exactly when no feature of any shark passes the filter |
| SharkApi.FeatureRecordsMembership | app/api/main.py:39-50 | a record is loaded exactly for each feature that passes the filter; all others are skipped |
| SharkApi.ToPing | app/api/main.py:81-93 | the ping's id is `str(shark_id)` and its location is the geometry; `doing` is `behavior`, or "Unknown" when absent; the timestamp is `datetime`, or None when absent |
| SharkApi.GroupKey | app/api/main.py:83 | `str(shark_id)`: a string id is its own key, and a missing id gives "None" |
| SharkApi.GetSharks | app/api/main.py:74-96 | the dict loop is the grouping of the features by `str(shark_id)`: keys by first appearance, each group its features' pings in input order |
| SharkApi.SharksEndpoint | app/api/main.py:74-96 | a server error exactly when the loaded frame is the column-less empty one (`to_json` at :77 raises); otherwise the grouping of the serialised features |
| Seqs.GroupByIsGrouping | app/api/main.py:79-94 | a one-pass `setdefault`-and-append dict has a group for exactly the occurring keys, keys in first-appearance order, groups in input order |
| SharkApi.GroupingPartitions | app/api/main.py:79-94 | every feature lands in the group of its own id, every ping of a group carries that id, and the groups hold exactly as many pings as there are features |
| SharkApi.BoundsError | app/api/main.py:103-110 | missing or empty bounds, then a count other than 2, then a corner not of length 2, each with its own message; no error exactly for two corners of two coordinates |
| SharkApi.BoundingRing | app/api/main.py:113-119 | the closed ring (x0,y0), (x1,y0), (x1,y1), (x0,y1), (x0,y0) of the box with the two given opposite corners |
| SharkApi.Matches | app/api/main.py:121-123 | the matches are exactly the records of the frame inside the ring, and no more than the frame holds |
| SharkApi.MatchesAppend | app/api/main.py:121-123 | the boolean mask filters record by record: the matches of a concatenated frame are the matches of each part, in frame order |
| SharkApi.MatchesOne | app/api/main.py:121-123 | one record is kept, exactly once, when it lies within the ring, and dropped otherwise |
| SharkApi.BuildPrompt | app/api/main.py:128-141 | at most 200 records, the leading ones; the zoom hint exactly when more than 500 points matched |
| SharkApi.AnalyzeSharkData | app/api/main.py:99-174 | bounds errors first; with valid bounds, a server error exactly when the loaded frame is the column-less empty one (`within` at :121 raises); "no data" when nothing matches; for valid bounds with matches, exactly the model's reply to the truncated prompt when it returns, and the prefixed error message when it raises |
| SharkApi.NoModelCallBeforeData | app/api/main.py:121-169 | for invalid bounds, the empty frame or no matches, the result does not depend on the model |
| SharkApi.NothingLoadedIsServerError | app/api/main.py:52-53 | with valid bounds, a tracking file with no accepted feature makes every analysis a server error, whatever `within` and the model answer |
| Json.PyStr | app/api/main.py:83 | `str()` of a string is the string itself |
| S3ListLambda.Or | predictive_model/py_files/s3_list_lambda.py:90-98 | Python `or`: one of its operands, the first when truthy, truthy when either is |
| S3ListLambda.CredentialField | predictive_model/py_files/s3_list_lambda.py:90-92 | the camelCase key if truthy, else the PascalCase key if truthy, else the environment variable |
| S3ListLambda.CredentialFieldFirstTruthy | predictive_model/py_files/s3_list_lambda.py:89-99 | the field is set exactly when some link of the chain is truthy, and it is one of the links |
| S3ListLambda.BuildS3ClientFromCreds | predictive_model/py_files/s3_list_lambda.py:84-103 | the session takes the region and each of the three credential fields through its own chain |
| S3ListLambda.FlattenKeys | predictive_model/py_files/s3_list_lambda.py:106-113 | the keys of all pages, page after page (no contract of its own: FlattenKeysMembership and FlattenKeysAppend state its meaning) |
| S3ListLambda.ListBucketKeys | predictive_model/py_files/s3_list_lambda.py:106-113 | the nested loop returns the keys of all pages, page after page |
| S3ListLambda.FlattenKeysAppend | predictive_model/py_files/s3_list_lambda.py:109-113 | flattening distributes over splitting the page sequence |
| S3ListLambda.EmptyPageContributesNothing | predictive_model/py_files/s3_list_lambda.py:111 | a page without `Contents` contributes nothing |
| S3ListLambda.FlattenKeysMembership | predictive_model/py_files/s3_list_lambda.py:109-113 | a key is listed exactly when some page holds it |
| S3ListLambda.ChooseSource | predictive_model/py_files/s3_list_lambda.py:135-164 | sources in fixed order: named secret, then both environment keys, then all three OAuth fields, else none; each case as an if-and-only-if |
| S3ListLambda.ClientFor | predictive_model/py_files/s3_list_lambda.py:135-154 | environment keys give the default client for the region; a named secret or the OAuth exchange gives a client built from the returned credentials, or its exception |
| S3ListLambda.Prefix | predictive_model/py_files/s3_list_lambda.py:166 | `event.get("prefix", "")` (no contract: a definition) |
| S3ListLambda.LambdaHandler | predictive_model/py_files/s3_list_lambda.py:116-174 | status is 200, 400 or 500; 400 exactly for a missing bucket or missing credentials; when the client and the listing both return, exactly 200 with the flattened keys of the listing with the bucket and prefix (default ""); a 500 only when getting the client or the listing raised, carrying its message |
| S3ListLambda.BucketCheckedFirst | predictive_model/py_files/s3_list_lambda.py:125-130 | without a bucket the answer is the same for every environment and every cloud |
| S3ListLambda.SecretTakesPrecedence | predictive_model/py_files/s3_list_lambda.py:135-138 | with a named secret the answer does not depend on the OAuth exchange |
| S3ListLambda.EnvironmentBeforeOAuth | predictive_model/py_files/s3_list_lambda.py:141-149 | with both environment keys set and no secret named, neither Secrets Manager nor OAuth is consulted |
| S3ListLambda.ExceptionsAre500 | predictive_model/py_files/s3_list_lambda.py:171-174 | an exception while getting credentials or listing gives status 500 with its message |
| ExportForaging.SpeedCategoryOf | predictive_model/py_files/export_foraging_areas.py:53-55 | (0,50] Low, (50,150] Medium, (150,300] High, (300,2000] Very_High, none otherwise, each as an if-and-only-if |
| ExportForaging.SpeedCategoryMonotone | predictive_model/py_files/export_foraging_areas.py:53-55 | a higher speed never gets a lower bucket |
| ExportForaging.Derive | predictive_model/py_files/export_foraging_areas.py:47-55 | `is_foraging` is 1 exactly for 'Foraging' (0 otherwise), `is_migrating` likewise for 'Migrating'; confidence + uncertainty = 1; `high_confidence` exactly when confidence ≥ 0.7; the speed bucket |
| ExportForaging.FlagsExclusive | predictive_model/py_files/export_foraging_areas.py:47-48 | no row is flagged both foraging and migrating |
| ExportForaging.ExportForagingAreas | predictive_model/py_files/export_foraging_areas.py:14-75 | one export row per input row, in order, each with its derived columns |
| ExportForaging.RoundHalfEven | predictive_model/py_files/export_foraging_areas.py:92-93 | `round()`: within one half of x, ties to the even integer |
| ExportForaging.BinOf | predictive_model/py_files/export_foraging_areas.py:92-93 | the cell of a row: its latitude and longitude in tenths of a degree lie within half a tenth of the cell centre |
| ExportForaging.SummaryOf | predictive_model/py_files/export_foraging_areas.py:110-119 | cell centre, counts, the given mean uncertainty, the seven column means over the group, confidence = 1 − uncertainty, intensity = observations × confidence, diversity = unique sharks / observations in (0, 1] |
| ExportForaging.Diversity | predictive_model/py_files/export_foraging_areas.py:119 | the diversity times the observations is the number of unique sharks, and it lies in (0, 1] |
| ExportForaging.BinSummary | predictive_model/py_files/export_foraging_areas.py:96-119 | a bin's observations are its foraging rows (at least one); unique sharks are their distinct ids, at least 1 and at most the observations; the cell centre; the mean uncertainty and the seven column means over the bin; the diversity and the derived columns |
| ExportForaging.IntensityBounds | predictive_model/py_files/export_foraging_areas.py:117-118 | with uncertainties in [0, 1], 0 ≤ intensity ≤ observations |
| ExportForaging.AggregateBins | predictive_model/py_files/export_foraging_areas.py:96-107 | one summary row per bin, in the given order |
| ExportForaging.Bins | predictive_model/py_files/export_foraging_areas.py:96 | the group keys: no key twice, every key the bin of some foraging row, and every foraging row's bin a key |
| ExportForaging.InsertDescending | predictive_model/py_files/export_foraging_areas.py:137 | insertion into a sequence sorted by decreasing weight keeps it sorted and adds exactly the element |
| ExportForaging.SortDescending | predictive_model/py_files/export_foraging_areas.py:137 | sorted by decreasing weight and a permutation of the input |
| ExportForaging.SortByIntensity | predictive_model/py_files/export_foraging_areas.py:137 | `sort_values('foraging_intensity', ascending=False)`: descending intensity, same rows |
| ExportForaging.ForagingRows | predictive_model/py_files/export_foraging_areas.py:85 | exactly the rows whose behaviour is 'Foraging', and no more rows than the input |
| ExportForaging.CreateForagingSummary | predictive_model/py_files/export_foraging_areas.py:78-144 | `None` exactly when no row is 'Foraging'; otherwise descending by intensity and a permutation of the aggregates of the foraging bins |
| ExportForaging.ForagingRowsEmpty | predictive_model/py_files/export_foraging_areas.py:85-89 | the filtered frame is empty exactly when no row is 'Foraging' |
| ExportForaging.SummaryRowBounds | predictive_model/py_files/export_foraging_areas.py:96-119 | every hotspot has 1 ≤ unique sharks ≤ observations and a diversity in (0, 1] |
| ExportForaging.OnlyForagingRowsCount | predictive_model/py_files/export_foraging_areas.py:85 | adding a row of another behaviour leaves the summary unchanged |
| ExportForaging.TotalObservationsSort | predictive_model/py_files/export_foraging_areas.py:137 | sorting does not change the total of the observation counts |
| ExportForaging.TotalObservationsAggregate | predictive_model/py_files/export_foraging_areas.py:96-98 | the bins' observation counts add up to the rows selected by those bins |
| ExportForaging.SummaryCountsEveryForagingRow | predictive_model/py_files/export_foraging_areas.py:85-107 | the hotspots together count every foraging row exactly once |
| PaceFileNames.Search | predictive_model/py_files/inspect_all_pace_files.py:33 | `re.search`: the leftmost match at or after a position, none exactly when no position matches |
| PaceFileNames.MatchAt | predictive_model/py_files/inspect_all_pace_files.py:33 | the pattern `\.(\d{8}T\d{6})\.` at one position: a dot, eight ASCII digits, 'T', six digits, a dot (no contract: a definition) |
| PaceFileNames.Format | predictive_model/py_files/inspect_all_pace_files.py:37 | 19 characters: '-' at 4 and 7, ' ' at 10, ':' at 13 and 16, and the 14 digits of the stamp in order with the 'T' dropped |
| PaceFileNames.FormatInverse | predictive_model/py_files/inspect_all_pace_files.py:36-37 | the captured group can be read back from the formatted time |
| PaceFileNames.NiceTimeFromName | predictive_model/py_files/inspect_all_pace_files.py:31-37 | a name without a match is returned unchanged; with a match the result has the 19-character layout |
| PaceFileNames.LeftmostMatchUsed | predictive_model/py_files/inspect_all_pace_files.py:33-37 | only the leftmost match is formatted, and its 14 stamp characters are all digits |
| PaceFileNames.ExampleMatch | predictive_model/py_files/inspect_all_pace_files.py:32-33 | the example matches at the dot after "PACE_OCI", capturing "20250803T193141" |
| PaceFileNames.ExampleNoEarlierMatch | predictive_model/py_files/inspect_all_pace_files.py:33 | nothing matches earlier in the example name |
| PaceFileNames.ExampleFormat | predictive_model/py_files/inspect_all_pace_files.py:32 | "20250803T193141" formats as "2025-08-03 19:31:41" |
| PaceFileNames.DocumentedExample | predictive_model/py_files/inspect_all_pace_files.py:32 | the documented example name gives "2025-08-03 19:31:41" |
| DbConfig.Utf8 | app/api/config.py:31 | UTF-8 of one scalar value: 1 to 4 bytes, one byte exactly for ASCII (the code itself), continuation bytes after the first |
| DbConfig.DecodeOneUtf8 | app/api/config.py:31 | the encoding of one scalar value decodes back to it, whatever follows |
| DbConfig.Utf8RoundTrip | app/api/config.py:31 | decoding the UTF-8 of a string gives the string back |
| DbConfig.QuoteByte | app/api/config.py:31 | one byte is written as 1 to 3 characters |
| DbConfig.QuoteBytes | app/api/config.py:31 | the encoding takes between 1 and 3 characters per byte |
| DbConfig.QuoteBytesEncoded | app/api/config.py:31 | every encoded character is unreserved, '+', '%' or an upper-case hex digit |
| DbConfig.QuotePlus | app/api/config.py:31-34 | the encoded password never contains ':', '@', '/' or '?' |
| DbConfig.QuotePlusRoundTrip | app/api/config.py:31 | the encoding loses nothing: decoding gives the password back |
| DbConfig.QuotePlusUnreserved | app/api/config.py:31 | a password of unreserved characters only is unchanged |
| DbConfig.QuotePlusAppend | app/api/config.py:31 | the encoding works character by character |
| DbConfig.QuotePlusChar | app/api/config.py:31 | space becomes "+"; any other character outside the unreserved set is written starting with '%', in three characters per UTF-8 byte |
| DbConfig.DatabaseUrl | app/api/config.py:25-34 | the URL starts with "mongodb+srv://", ends with the database name, and its length is that of the parts with only the password encoded |
| DbConfig.UrlShape | app/api/config.py:34 | the URL is scheme, user, ':', encoded password, '@', host, '/', the query options and the name, in that order |
| DbConfig.ParseAuthority | app/api/config.py:34 | user, password, host and name can be read back from a string of that shape |
| DbConfig.DatabaseUrlRoundTrip | app/api/config.py:31-34 | when the user holds no ':' and the host no '/', the URL determines every setting, the password included |

## Left out

- The ocean-current particle animation, its water mask and its trail renderer are not part of this model: no source for them is among the files modelled.
- File and network I/O is left out: `load_pace_data`, the CSV read, sort and `df.sample` in `preprocess_shark_data`, every `to_csv`, the module-level loops of the inspect scripts, and `FInalModel.py` (HMM fitting, scaling, plotting). The sampled frame and the loaded PACE dates enter as parameters.
- Floating point is modelled with exact reals. This covers the haversine and `arctan2` formulas (the `Geodesy` parameter), the synthetic environmental formulas and their random draws (the `draws` and `model` parameters), the SWOT eddy statistics, NaN handling in means and `np.clip`, and float rounding error.
- ExportForaging.BinOf: bins are computed as `round(latitude × 10)` on exact reals, not as `round(latitude / 0.1)` in floating point, so a coordinate sitting on a float rounding edge may be binned differently.
- The `.round(n)` display rounding of the exported columns is left out; the flags and `high_confidence` are computed before it, as in the source.
- ExportForaging.SortByIntensity: the source sorts by `foraging_intensity` after rounding it to two decimals (export_foraging_areas.py line 133), so bins whose intensities agree to two decimals are ties there; the model sorts by the unrounded intensity. Pandas' default sort is also not stable and groupby orders its keys, while the model sorts by insertion with bins in first-appearance order. So bins whose intensities agree to two decimals may come out in a different order, and the model's intensity column is not rounded.
- Preprocess.ExtractPaceEnvironmentalData: the synthetic formulas (chlorophyll, carbon, POC, SST, depth and eddy speed from the PACE arrays, the eddy statistics and random draws) are the `model` parameter; the model states which date they are applied to and the final clamp.
- Preprocess.PreprocessSharkData: `max_sharks` is taken as a natural number. The model reads the movement frame's shark order from the modelled frame, not from a pandas index.
- Pandas frames updated column by column in place (the derived export columns and the environmental columns) are modelled as one pass over rows that builds new rows; the resulting frames are the same.
- SharkApi.LoadSharkData: the `Point` construction, `tz_localize` of `datetime` and the CRS are left out; a record keeps the coordinates as given.
- SharkApi.LoadSharkData: three error paths are not modelled. A feature whose "properties" is JSON null raises TypeError at `**properties` (main.py line 48), and a shark whose "location" is null raises TypeError when iterated (line 39); the model's JSON types treat null like absent in both places. When records exist but none has a `datetime`, `gdf['datetime']` raises KeyError (line 56); the model returns the frame.
- SharkApi.GetSharks: the features enter already serialised (`to_json`), since the serialisation is the geometry library's; `SharksEndpoint` takes it as a parameter and models only its failure on the column-less frame.
- SharkApi.AnalyzeSharkData: the fixed prompt text and `json.dumps` of the records are left out; the prompt is the zoom hint and the records. `within` (the spatial predicate) and the model call are parameters. `AnalysisRequest` is imported from app/api/types.py, which does not define it; the request is modelled by its `bounds` only.
- S3ListLambda: `retrieve_credentials` (HTTP), Secrets Manager and the S3 paginator are parameters that return or raise; the `print` to the log is left out. The environment-key branch builds a client from the default credential chain, modelled as `FromEnvironment(region)`.
- The retry configuration of the boto3 clients is left out.
- DbConfig: Dafny `char` values are Unicode scalar values, so lone surrogates (which Python's `quote_plus` rejects) cannot occur. `get_settings`, the environment file and `sys.exit` are left out. `UnquotePlus` is stricter than Python's `unquote_plus`, which accepts malformed escapes; it is used only as the partner of `QuotePlus`.
- PaceFileNames: `\d` is restricted to ASCII digits; Python would also match other Unicode decimal digits.

=== FILE: api_main.dfy ===
/** The record handling of the shark API (app/api/main.py): loading the
    tracking GeoJSON into records, grouping pings by shark for `/sharks`,
    and the checks and truncation of `/sharks/analyze` around the call to
    the language model. */
module SharkApi {
  import opened Wrappers
  import opened Seqs
  import opened Json

  /** A member of a GeoJSON geometry object: text (as under "type") or
      numbers (as under "coordinates"). */
  datatype GeoMember = Text(s: string) | Numbers(xs: seq<real>)

  type Geometry = map<string, GeoMember>

  /** One element of a shark's "location" list. A missing "properties" is
      `None`; a missing or null "geometry" is `None`. */
  datatype LocationFeature = LocationFeature(properties: Option<map<string, Value>>, geometry: Option<Geometry>)

  /** One shark of the tracking file: its "id" (`Null` when absent) and its
      "location" list (`None` when absent). */
  datatype SharkEntry = SharkEntry(id: Value, location: Option<seq<LocationFeature>>)

  /** A cell of the loaded frame: a property value, or the point built from
      the feature's coordinates. */
  datatype Cell = Data(v: Value) | Point(coordinates: GeoMember)

  type Record = map<string, Cell>

  datatype Frame = EmptyFrame | GeoFrame(records: seq<Record>)

  // ---------------------------------------------------------------------
  // load_shark_data
  // ---------------------------------------------------------------------

  function Locations(e: SharkEntry): seq<LocationFeature> {
    match e.location
    case None => []
    case Some(fs) => fs
  }

  function PropertiesOf(f: LocationFeature): map<string, Value> {
    match f.properties
    case None => map[]
    case Some(p) => p
  }

  /** The filter: a truthy shark id, a non-empty geometry, and coordinates
      in that geometry. */
  predicate Accepted(id: Value, f: LocationFeature) {
    Truthy(id) && f.geometry.Some? && f.geometry.value != map[] && "coordinates" in f.geometry.value
  }

  /** `{'shark_id': id, 'geometry': Point(coords), **properties}`. */
  function MakeRecord(id: Value, f: LocationFeature): (r: Record)
    requires Accepted(id, f)
    ensures r.Keys == PropertiesOf(f).Keys + {"shark_id", "geometry"}
    ensures forall k :: k in PropertiesOf(f) ==> r[k] == Data(PropertiesOf(f)[k])
    ensures "shark_id" !in PropertiesOf(f) ==> r["shark_id"] == Data(id)
    ensures "geometry" !in PropertiesOf(f) ==> r["geometry"] == Point(f.geometry.value["coordinates"])
  {
    var props := PropertiesOf(f);
    var base := map["shark_id" := Data(id), "geometry" := Point(f.geometry.value["coordinates"])];
    base + map k | k in props :: Data(props[k])
  }

  function AcceptedBy(id: Value): LocationFeature -> bool {
    f => Accepted(id, f)
  }

  function RecordOf(id: Value): LocationFeature --> Record {
    f requires Accepted(id, f) => MakeRecord(id, f)
  }

  /** The records one shark contributes, in feature order. */
  function FeatureRecords(id: Value, fs: seq<LocationFeature>): seq<Record> {
    FilterMap(fs, AcceptedBy(id), RecordOf(id))
  }

  /** All records, shark after shark. */
  function Records(data: seq<SharkEntry>): seq<Record> {
    if data == [] then []
    else Records(data[..|data| - 1]) + FeatureRecords(data[|data| - 1].id, Locations(data[|data| - 1]))
  }

  /** Some feature of some shark passes the filter. */
  ghost predicate AnyAccepted(data: seq<SharkEntry>) {
    exists i, j :: 0 <= i < |data| && 0 <= j < |Locations(data[i])| && Accepted(data[i].id, Locations(data[i])[j])
  }

  method LoadSharkData(data: seq<SharkEntry>) returns (frame: Frame)
    ensures frame == if Records(data) == [] then EmptyFrame else GeoFrame(Records(data))
    ensures frame.EmptyFrame? <==> !AnyAccepted(data)
  {
    var records: seq<Record> := [];
    var s := 0;
    while s < |data|
      invariant 0 <= s <= |data|
      invariant records == Records(data[..s])
    {
      var shark := data[s];
      var sharkId := shark.id;
      var features := Locations(shark);
      var j := 0;
      while j < |features|
        invariant 0 <= j <= |features|
        invariant records == Records(data[..s]) + FeatureRecords(sharkId, features[..j])
      {
        var feature := features[j];
        FeatureRecordsSnoc(sharkId, features[..j + 1]);
        assert features[..j + 1][..j] == features[..j];
        if Accepted(sharkId, feature) {
          records := records + [MakeRecord(sharkId, feature)];
        }
        j := j + 1;
      }
      assert data[..s + 1][..s] == data[..s];
      assert features[..|features|] == features;
      s := s + 1;
    }
    assert data[..|data|] == data;
    RecordsEmpty(data);
    if records == [] {
      frame := EmptyFrame;
    } else {
      frame := GeoFrame(records);
    }
  }

  lemma FeatureRecordsSnoc(id: Value, fs: seq<LocationFeature>)
    requires |fs| > 0
    ensures FeatureRecords(id, fs) == FeatureRecords(id, fs[..|fs| - 1])
      + (if Accepted(id, fs[|fs| - 1]) then [MakeRecord(id, fs[|fs| - 1])] else [])
  {
  }

  lemma FeatureRecordsEmpty(id: Value, fs: seq<LocationFeature>)
    ensures FeatureRecords(id, fs) == [] <==> forall j :: 0 <= j < |fs| ==> !Accepted(id, fs[j])
  {
    FilterMapEmpty(fs, AcceptedBy(id), RecordOf(id));
  }

  /** No record is produced exactly when no feature passes the filter. */
  lemma {:induction false} RecordsEmpty(data: seq<SharkEntry>)
    ensures Records(data) == [] <==> !AnyAccepted(data)
  {
    if data != [] {
      var init, last := data[..|data| - 1], data[|data| - 1];
      RecordsEmpty(init);
      FeatureRecordsEmpty(last.id, Locations(last));
      assert forall i :: 0 <= i < |init| ==> init[i] == data[i];
      if AnyAccepted(data) {
        var i, j :| 0 <= i < |data| && 0 <= j < |Locations(data[i])| && Accepted(data[i].id, Locations(data[i])[j]);
        if i < |init| {
          assert AnyAccepted(init);
        }
      }
    }
  }

  /** A record is loaded exactly for each feature that passes the filter. */
  lemma FeatureRecordsMembership(id: Value, fs: seq<LocationFeature>, r: Record)
    ensures r in FeatureRecords(id, fs) <==>
      exists j :: 0 <= j < |fs| && Accepted(id, fs[j]) && r == MakeRecord(id, fs[j])
  {
    FilterMapMembership(fs, AcceptedBy(id), RecordOf(id), r);
  }

  // ---------------------------------------------------------------------
  // get_sharks
  // ---------------------------------------------------------------------

  /** A feature of the loaded frame serialised as GeoJSON. */
  datatype GeoFeature = GeoFeature(properties: map<string, Value>, geometry: Geometry)

  datatype Ping = Ping(id: string, timestamp: Value, location: Geometry, doing: Value)

  /** `props.get(k, default)`. */
  function Get(m: map<string, Value>, k: string, default: Value): Value {
    if k in m then m[k] else default
  }

  /** `str(props.get("shark_id"))`: the group a feature lands in. */
  function GroupKey(f: GeoFeature): (k: string)
    ensures "shark_id" in f.properties && f.properties["shark_id"].Str? ==> k == f.properties["shark_id"].s
    ensures "shark_id" !in f.properties ==> k == "None"
  {
    PyStr(Get(f.properties, "shark_id", Null))
  }

  function ToPing(f: GeoFeature): (p: Ping)
    ensures p.id == GroupKey(f)
    ensures p.location == f.geometry
    ensures "behavior" in f.properties ==> p.doing == f.properties["behavior"]
    ensures "behavior" !in f.properties ==> p.doing == Str("Unknown")
    ensures "datetime" in f.properties ==> p.timestamp == f.properties["datetime"]
    ensures "datetime" !in f.properties ==> p.timestamp == Null
  {
    Ping(GroupKey(f), Get(f.properties, "datetime", Null), f.geometry, Get(f.properties, "behavior", Str("Unknown")))
  }

  /** `grouped_sharks`: `order` is the dict's key order. */
  method GetSharks(features: seq<GeoFeature>) returns (order: seq<string>, grouped: map<string, seq<Ping>>)
    ensures IsGrouping(features, GroupKey, ToPing, order, grouped)
  {
    order := [];
    grouped := map[];
    var i := 0;
    while i < |features|
      invariant 0 <= i <= |features|
      invariant (order, grouped) == GroupBy(features[..i], GroupKey, ToPing)
    {
      var feature := features[i];
      var sharkId := GroupKey(feature);
      assert features[..i + 1][..i] == features[..i];
      if sharkId in grouped {
        grouped := grouped[sharkId := grouped[sharkId] + [ToPing(feature)]];
      } else {
        order := order + [sharkId];
        grouped := grouped[sharkId := [ToPing(feature)]];
      }
      i := i + 1;
    }
    assert features[..|features|] == features;
    GroupByIsGrouping(features, GroupKey, ToPing);
  }

  /** The reply of the `/sharks` endpoint: the grouped pings, or the HTTP 500
      the framework sends for an uncaught exception. */
  datatype SharksReply = Sharks(order: seq<string>, grouped: map<string, seq<Ping>>) | SharksError

  /** `get_sharks` on the loaded frame; `serialise` is the geometry
      library's `to_json` of the records. The column-less frame loaded when
      no feature was accepted has no geometry column to serialise, so
      `to_json` raises and the endpoint answers `SharksError`. */
  method SharksEndpoint(frame: Frame, serialise: seq<Record> -> seq<GeoFeature>) returns (reply: SharksReply)
    ensures reply.SharksError? <==> frame.EmptyFrame?
    ensures reply.Sharks? ==> IsGrouping(serialise(frame.records), GroupKey, ToPing, reply.order, reply.grouped)
  {
    match frame
    case EmptyFrame =>
      reply := SharksError;
    case GeoFrame(records) =>
      var order, grouped := GetSharks(serialise(records));
      reply := Sharks(order, grouped);
  }

  /** Grouping is a partition of the features: every feature's ping is in the
      group of its own id, every ping of a group carries that group's id,
      and the groups together hold exactly as many pings as there are
      features. */
  lemma GroupingPartitions(features: seq<GeoFeature>)
    ensures forall i :: 0 <= i < |features| ==>
      ToPing(features[i]) in Project(Select(features, GroupKey, GroupKey(features[i])), ToPing)
    ensures forall k, j :: 0 <= j < |Project(Select(features, GroupKey, k), ToPing)| ==>
      Project(Select(features, GroupKey, k), ToPing)[j].id == k
    ensures TotalSelected(features, GroupKey, Distinct(Project(features, GroupKey))) == |features|
  {
    forall i | 0 <= i < |features|
      ensures ToPing(features[i]) in Project(Select(features, GroupKey, GroupKey(features[i])), ToPing)
    {
      SelectContains(features, GroupKey, i);
    }
    PartitionSize(features, GroupKey);
  }

  // ---------------------------------------------------------------------
  // analyze_shark_data
  // ---------------------------------------------------------------------

  const NoBoundsError := "Please provide bounds."
  const BoundsCountError := "Please provide exactly two bounds (Upper left corner, and Lower right corner)."
  const CornerError := "Each bound must contain exactly two coordinates (latitude and longitude)."
  const NoDataError := "No shark data found for the given criteria."
  const ModelErrorPrefix := "Failed to get analysis from Gemini: "
  const ZoomHint := "In your response, add a suggestion to zoom in on the area to get more detailed interpretation since there are many data points."

  /** At most this many records go into the prompt. */
  const PromptLimit := 200
  /** Above this many matches the zoom hint is added. */
  const ZoomThreshold := 500

  /** The endpoint's reply: an `{"error": …}` body, the model's analysis, or
      the HTTP 500 the framework sends for an uncaught exception. */
  datatype AnalysisResult = Failure(error: string) | Analysis(text: string) | ServerError

  /** What is sent to the model: the optional extra instruction and the
      records listed in the prompt. The fixed prompt text is left out. */
  datatype Prompt = Prompt(extraPrompt: string, data: seq<Record>)

  /** The first failed check of the requested bounds, if any. */
  function BoundsError(bounds: Option<seq<seq<real>>>): (e: Option<string>)
    ensures (bounds.None? || bounds.value == []) <==> e == Some(NoBoundsError)
    ensures e == Some(BoundsCountError) <==> bounds.Some? && bounds.value != [] && |bounds.value| != 2
    ensures e == Some(CornerError) <==>
      bounds.Some? && |bounds.value| == 2 && (|bounds.value[0]| != 2 || |bounds.value[1]| != 2)
    ensures e.None? <==> bounds.Some? && |bounds.value| == 2 && |bounds.value[0]| == 2 && |bounds.value[1]| == 2
  {
    if bounds.None? || bounds.value == [] then Some(NoBoundsError)
    else if |bounds.value| != 2 then Some(BoundsCountError)
    else if |bounds.value[0]| != 2 || |bounds.value[1]| != 2 then Some(CornerError)
    else None
  }

  /** The closed ring of the box with the two given opposite corners. */
  function BoundingRing(b: seq<seq<real>>): (ring: seq<(real, real)>)
    requires |b| == 2 && |b[0]| == 2 && |b[1]| == 2
    ensures |ring| == 5 && ring[0] == ring[4] == (b[0][0], b[0][1])
    ensures ring[1] == (b[1][0], b[0][1]) && ring[2] == (b[1][0], b[1][1]) && ring[3] == (b[0][0], b[1][1])
  {
    [(b[0][0], b[0][1]), (b[1][0], b[0][1]), (b[1][0], b[1][1]), (b[0][0], b[1][1]), (b[0][0], b[0][1])]
  }

  /** The records inside the ring, in frame order; `within` is the spatial
      predicate of the geometry library. */
  function Matches(frame: seq<Record>, ring: seq<(real, real)>, within: (seq<(real, real)>, Record) -> bool): (m: seq<Record>)
    ensures |m| <= |frame|
    ensures forall r :: r in m <==> r in frame && within(ring, r)
  {
    var key := (r: Record) => within(ring, r);
    forall r ensures r in Select(frame, key, true) <==> r in frame && within(ring, r) {
      SelectMembership(frame, key, true, r);
    }
    Select(frame, key, true)
  }

  /** The mask filter works record by record: matching a concatenation
      matches each part, in order. */
  lemma {:induction false} MatchesAppend(f1: seq<Record>, f2: seq<Record>, ring: seq<(real, real)>,
                                         within: (seq<(real, real)>, Record) -> bool)
    ensures Matches(f1 + f2, ring, within) == Matches(f1, ring, within) + Matches(f2, ring, within)
  {
    SelectAppend(f1, f2, (r: Record) => within(ring, r), true);
  }

  /** A single record is kept, once, exactly when it lies within the ring. */
  lemma MatchesOne(r: Record, ring: seq<(real, real)>, within: (seq<(real, real)>, Record) -> bool)
    ensures Matches([r], ring, within) == if within(ring, r) then [r] else []
  {
    assert [r][..0] == [];
  }

  /** The prompt for the matched records: the first 200 of them, and the
      zoom hint exactly when there are more than 500. */
  function BuildPrompt(matches: seq<Record>): (p: Prompt)
    ensures |p.data| <= PromptLimit
    ensures |p.data| == if |matches| < PromptLimit then |matches| else PromptLimit
    ensures p.data == matches[..|p.data|]
    ensures p.extraPrompt == ZoomHint <==> |matches| > ZoomThreshold
    ensures p.extraPrompt == "" <==> |matches| <= ZoomThreshold
  {
    var limited := |matches| > ZoomThreshold;
    var head := if |matches| < PromptLimit then matches else matches[..PromptLimit];
    Prompt(if limited then ZoomHint else "", head)
  }

  /** `analyze_shark_data`; `generate` is the language-model call. The
      column-less frame loaded when no feature was accepted has no geometry
      column, so `within` raises and the endpoint answers `ServerError`. */
  function AnalyzeSharkData(
    bounds: Option<seq<seq<real>>>, frame: Frame,
    within: (seq<(real, real)>, Record) -> bool, generate: Prompt -> Outcome<string>): (r: AnalysisResult)
    ensures BoundsError(bounds).Some? ==> r == Failure(BoundsError(bounds).value)
    ensures r == ServerError <==> BoundsError(bounds).None? && frame.EmptyFrame?
    ensures BoundsError(bounds).None? && frame.GeoFrame? && Matches(frame.records, BoundingRing(bounds.value), within) == [] ==>
      r == Failure(NoDataError)
    ensures r.Analysis? ==>
      BoundsError(bounds).None? && frame.GeoFrame? && Matches(frame.records, BoundingRing(bounds.value), within) != [] &&
      generate(BuildPrompt(Matches(frame.records, BoundingRing(bounds.value), within))) == Returned(r.text)
    ensures (BoundsError(bounds).None? && frame.GeoFrame? && Matches(frame.records, BoundingRing(bounds.value), within) != [] &&
             generate(BuildPrompt(Matches(frame.records, BoundingRing(bounds.value), within))).Returned?) ==>
      r == Analysis(generate(BuildPrompt(Matches(frame.records, BoundingRing(bounds.value), within))).value)
    ensures (BoundsError(bounds).None? && frame.GeoFrame? && Matches(frame.records, BoundingRing(bounds.value), within) != [] &&
             generate(BuildPrompt(Matches(frame.records, BoundingRing(bounds.value), within))).Raised?) ==>
      r == Failure(ModelErrorPrefix + generate(BuildPrompt(Matches(frame.records, BoundingRing(bounds.value), within))).message)
  {
    match BoundsError(bounds)
    case Some(e) => Failure(e)
    case None =>
      match frame
      case EmptyFrame => ServerError
      case GeoFrame(records) =>
        var results := Matches(records, BoundingRing(bounds.value), within);
        if results == [] then Failure(NoDataError)
        else
          match generate(BuildPrompt(results))
          case Returned(text) => Analysis(text)
          case Raised(message) => Failure(ModelErrorPrefix + message)
  }

  /** The model is consulted only for valid bounds with at least one match:
      otherwise the answer is the same whatever the model would say. */
  lemma NoModelCallBeforeData(
    bounds: Option<seq<seq<real>>>, frame: Frame,
    within: (seq<(real, real)>, Record) -> bool, g1: Prompt -> Outcome<string>, g2: Prompt -> Outcome<string>)
    requires BoundsError(bounds).Some? || frame.EmptyFrame? || Matches(frame.records, BoundingRing(bounds.value), within) == []
    ensures AnalyzeSharkData(bounds, frame, within, g1) == AnalyzeSharkData(bounds, frame, within, g2)
  {
  }

  /** With valid bounds, a tracking file without one accepted feature makes
      every analysis request fail with a server error, however the geometry
      library and the model would answer. */
  lemma NothingLoadedIsServerError(
    data: seq<SharkEntry>, bounds: Option<seq<seq<real>>>,
    within: (seq<(real, real)>, Record) -> bool, generate: Prompt -> Outcome<string>)
    requires BoundsError(bounds).None? && !AnyAccepted(data)
    ensures AnalyzeSharkData(bounds, if Records(data) == [] then EmptyFrame else GeoFrame(Records(data)), within, generate) == ServerError
  {
    RecordsEmpty(data);
  }
}

=== FILE: db_config.dfy ===
/** The database connection string of the API settings (app/api/config.py):
    the password is encoded with Python's `urllib.parse.quote_plus` (UTF-8,
    then percent-encoding of every byte outside the unreserved set of
    section 2.3 of RFC 3986, with space written as '+'), and user, host and
    database name are inserted as they are. */
module DbConfig {
  import opened Wrappers

  newtype byte = x: int | 0 <= x < 256

  // ---------------------------------------------------------------------
  // UTF-8 (section 3 of RFC 3629)
  // ---------------------------------------------------------------------

  predicate Continuation(b: byte) {
    0x80 <= b < 0xC0
  }

  /** The UTF-8 bytes of one scalar value. */
  function Utf8(c: char): (bs: seq<byte>)
    ensures 1 <= |bs| <= 4
    ensures |bs| == 1 <==> c as int < 0x80
    ensures |bs| == 1 ==> bs[0] as int == c as int
    ensures forall i :: 1 <= i < |bs| ==> Continuation(bs[i])
  {
    var n := c as int;
    if n < 0x80 then [n as byte]
    else if n < 0x800 then [(0xC0 + n / 64) as byte, (0x80 + n % 64) as byte]
    else if n < 0x10000 then
      [(0xE0 + n / 4096) as byte, (0x80 + n / 64 % 64) as byte, (0x80 + n % 64) as byte]
    else
      [(0xF0 + n / 262144) as byte, (0x80 + n / 4096 % 64) as byte,
       (0x80 + n / 64 % 64) as byte, (0x80 + n % 64) as byte]
  }

  function Utf8Encode(s: string): seq<byte> {
    if s == [] then [] else Utf8(s[0]) + Utf8Encode(s[1..])
  }

  predicate IsScalar(n: int) {
    0 <= n < 0xD800 || 0xE000 <= n < 0x110000
  }

  /** The scalar value at the front of `bs` and the number of bytes it takes;
      `None` when the front is not a shortest, well-formed encoding. */
  function DecodeOne(bs: seq<byte>): (r: Option<(char, nat)>)
    requires |bs| > 0
    ensures r.Some? ==> 1 <= r.value.1 <= |bs|
  {
    var b0 := bs[0] as int;
    if b0 < 0x80 then Some((b0 as char, 1))
    else if 0xC2 <= b0 < 0xE0 && |bs| >= 2 && Continuation(bs[1]) then
      var n := (b0 - 0xC0) * 64 + (bs[1] as int - 0x80);
      Some((n as char, 2))
    else if 0xE0 <= b0 < 0xF0 && |bs| >= 3 && Continuation(bs[1]) && Continuation(bs[2]) then
      var n := (b0 - 0xE0) * 4096 + (bs[1] as int - 0x80) * 64 + (bs[2] as int - 0x80);
      if 0x800 <= n && IsScalar(n) then Some((n as char, 3)) else None
    else if 0xF0 <= b0 < 0xF5 && |bs| >= 4 && Continuation(bs[1]) && Continuation(bs[2]) && Continuation(bs[3]) then
      var n := (b0 - 0xF0) * 262144 + (bs[1] as int - 0x80) * 4096 + (bs[2] as int - 0x80) * 64 + (bs[3] as int - 0x80);
      if 0x10000 <= n < 0x110000 then Some((n as char, 4)) else None
    else None
  }

  function Utf8Decode(bs: seq<byte>): Option<string>
    decreases |bs|
  {
    if bs == [] then Some([])
    else
      match DecodeOne(bs)
      case None => None
      case Some((c, k)) =>
        match Utf8Decode(bs[k..])
        case None => None
        case Some(rest) => Some([c] + rest)
  }

  /** One encoded scalar value decodes back to itself, whatever follows. */
  lemma DecodeOneUtf8(c: char, rest: seq<byte>)
    ensures DecodeOne(Utf8(c) + rest) == Some((c, |Utf8(c)|))
  {
    var n := c as int;
    if n < 0x80 {
    } else if n < 0x800 {
      DecodeTwo(c, rest);
    } else if n < 0x10000 {
      DecodeThree(c, rest);
    } else {
      DecodeFour(c, rest);
    }
  }

  lemma DecodeTwo(c: char, rest: seq<byte>)
    requires 0x80 <= c as int < 0x800
    ensures DecodeOne(Utf8(c) + rest) == Some((c, 2))
  {
    var n := c as int;
    var bs := Utf8(c) + rest;
    assert bs[0] as int == 0xC0 + n / 64 && bs[1] as int == 0x80 + n % 64;
  }

  lemma DecodeThree(c: char, rest: seq<byte>)
    requires 0x800 <= c as int < 0x10000
    ensures DecodeOne(Utf8(c) + rest) == Some((c, 3))
  {
    var n := c as int;
    var bs := Utf8(c) + rest;
    assert bs[0] as int == 0xE0 + n / 4096;
    assert bs[1] as int == 0x80 + n / 64 % 64 && bs[2] as int == 0x80 + n % 64;
    assert n / 4096 * 4096 + n / 64 % 64 * 64 == n / 64 * 64;
  }

  lemma DecodeFour(c: char, rest: seq<byte>)
    requires 0x10000 <= c as int
    ensures DecodeOne(Utf8(c) + rest) == Some((c, 4))
  {
    var n := c as int;
    var bs := Utf8(c) + rest;
    assert bs[0] as int == 0xF0 + n / 262144;
    assert bs[1] as int == 0x80 + n / 4096 % 64;
    assert bs[2] as int == 0x80 + n / 64 % 64 && bs[3] as int == 0x80 + n % 64;
    assert n / 262144 * 262144 + n / 4096 % 64 * 4096 == n / 4096 * 4096;
    assert n / 4096 * 4096 + n / 64 % 64 * 64 == n / 64 * 64;
  }

  /** Decoding undoes encoding. */
  lemma {:induction false} Utf8RoundTrip(s: string)
    ensures Utf8Decode(Utf8Encode(s)) == Some(s)
  {
    if s != [] {
      var head, tail := Utf8(s[0]), Utf8Encode(s[1..]);
      DecodeOneUtf8(s[0], tail);
      assert (head + tail)[|head|..] == tail;
      Utf8RoundTrip(s[1..]);
      assert s == [s[0]] + s[1..];
    }
  }

  // ---------------------------------------------------------------------
  // quote_plus
  // ---------------------------------------------------------------------

  /** ALPHA, DIGIT, '-', '.', '_' and '~' (section 2.3 of RFC 3986). */
  predicate Unreserved(c: char) {
    || 'A' <= c <= 'Z' || 'a' <= c <= 'z' || '0' <= c <= '9'
    || c == '-' || c == '.' || c == '_' || c == '~'
  }

  predicate IsHexDigit(c: char) {
    '0' <= c <= '9' || 'A' <= c <= 'F'
  }

  function HexDigit(n: int): (c: char)
    requires 0 <= n < 16
    ensures IsHexDigit(c)
  {
    if n < 10 then ('0' as int + n) as char else ('A' as int + n - 10) as char
  }

  function HexValue(c: char): (n: int)
    requires IsHexDigit(c)
    ensures 0 <= n < 16 && HexDigit(n) == c
  {
    if c <= '9' then c as int - '0' as int else c as int - 'A' as int + 10
  }

  /** The characters an encoded password can hold. */
  predicate Encoded(c: char) {
    Unreserved(c) || c == '+' || c == '%' || IsHexDigit(c)
  }

  /** One byte of the UTF-8 form: an unreserved byte as its character, a
      space as '+', anything else as '%' and two upper-case hex digits. */
  function QuoteByte(b: byte): (r: string)
    ensures 1 <= |r| <= 3
  {
    if Unreserved(b as int as char) then [b as int as char]
    else if b == 32 then "+"
    else ['%', HexDigit(b as int / 16), HexDigit(b as int % 16)]
  }

  function QuoteBytes(bs: seq<byte>): (r: string)
    ensures |bs| <= |r| <= 3 * |bs|
  {
    if bs == [] then [] else QuoteByte(bs[0]) + QuoteBytes(bs[1..])
  }

  /** Every character of an encoding is unreserved, '+', '%' or a hex digit. */
  lemma {:induction false} QuoteBytesEncoded(bs: seq<byte>)
    ensures forall i :: 0 <= i < |QuoteBytes(bs)| ==> Encoded(QuoteBytes(bs)[i])
  {
    if bs != [] {
      QuoteBytesEncoded(bs[1..]);
      var head, tail := QuoteByte(bs[0]), QuoteBytes(bs[1..]);
      forall i | 0 <= i < |head + tail|
        ensures Encoded((head + tail)[i])
      {
        if i >= |head| {
          assert (head + tail)[i] == tail[i - |head|];
        }
      }
    }
  }

  /** `quote_plus(s)`; it never yields a character that delimits the parts
      of a URL's authority. */
  function QuotePlus(s: string): (r: string)
    ensures forall i :: 0 <= i < |r| ==> r[i] != ':' && r[i] != '@' && r[i] != '/' && r[i] != '?'
  {
    QuoteBytesEncoded(Utf8Encode(s));
    QuoteBytes(Utf8Encode(s))
  }

  /** The inverse of `QuoteBytes`: '+' is a space, "%XX" a byte, any other
      ASCII character itself. */
  function UnquoteBytes(s: string): Option<seq<byte>>
    decreases |s|
  {
    if s == [] then Some([])
    else if s[0] == '+' then
      match UnquoteBytes(s[1..])
      case None => None
      case Some(rest) => Some([32 as byte] + rest)
    else if s[0] == '%' then
      if |s| >= 3 && IsHexDigit(s[1]) && IsHexDigit(s[2]) then
        match UnquoteBytes(s[3..])
        case None => None
        case Some(rest) => Some([(HexValue(s[1]) * 16 + HexValue(s[2])) as byte] + rest)
      else None
    else if s[0] as int < 0x80 then
      match UnquoteBytes(s[1..])
      case None => None
      case Some(rest) => Some([s[0] as int as byte] + rest)
    else None
  }

  /** `unquote_plus` on what `quote_plus` produces. */
  function UnquotePlus(s: string): Option<string> {
    match UnquoteBytes(s)
    case None => None
    case Some(bs) => Utf8Decode(bs)
  }

  lemma UnquoteQuoteByte(b: byte, rest: string)
    ensures UnquoteBytes(QuoteByte(b) + rest) ==
      match UnquoteBytes(rest) case None => None case Some(r) => Some([b] + r)
  {
    var q := QuoteByte(b) + rest;
    if Unreserved(b as int as char) {
      assert q[1..] == rest;
    } else if b == 32 {
      assert q[1..] == rest;
    } else {
      assert q[3..] == rest;
      var hi, lo := b as int / 16, b as int % 16;
      assert HexValue(q[1]) == hi && HexValue(q[2]) == lo;
    }
  }

  lemma {:induction false} UnquoteQuoteBytes(bs: seq<byte>)
    ensures UnquoteBytes(QuoteBytes(bs)) == Some(bs)
  {
    if bs != [] {
      UnquoteQuoteBytes(bs[1..]);
      UnquoteQuoteByte(bs[0], QuoteBytes(bs[1..]));
      assert bs == [bs[0]] + bs[1..];
    }
  }

  /** Decoding recovers the password exactly. */
  lemma QuotePlusRoundTrip(s: string)
    ensures UnquotePlus(QuotePlus(s)) == Some(s)
  {
    UnquoteQuoteBytes(Utf8Encode(s));
    Utf8RoundTrip(s);
  }

  /** A password of unreserved characters only is left as it is. */
  lemma {:induction false} QuotePlusUnreserved(s: string)
    requires forall i :: 0 <= i < |s| ==> Unreserved(s[i])
    ensures QuotePlus(s) == s
  {
    if s != [] {
      QuotePlusUnreserved(s[1..]);
      assert Utf8Encode(s) == [s[0] as int as byte] + Utf8Encode(s[1..]);
      QuoteBytesAppend([s[0] as int as byte], Utf8Encode(s[1..]));
      assert s == [s[0]] + s[1..];
    }
  }

  lemma {:induction false} QuoteBytesAppend(a: seq<byte>, b: seq<byte>)
    ensures QuoteBytes(a + b) == QuoteBytes(a) + QuoteBytes(b)
  {
    if a == [] {
      assert a + b == b;
    } else {
      QuoteBytesAppend(a[1..], b);
      var head := QuoteByte(a[0]);
      assert QuoteBytes(a + b) == head + QuoteBytes(a[1..] + b) by {
        assert (a + b)[0] == a[0] && (a + b)[1..] == a[1..] + b;
      }
      Associative(head, QuoteBytes(a[1..]), QuoteBytes(b));
    }
  }

  lemma Associative<T>(x: seq<T>, y: seq<T>, z: seq<T>)
    ensures x + (y + z) == x + y + z
  {
  }

  lemma {:induction false} Utf8EncodeAppend(s: string, t: string)
    ensures Utf8Encode(s + t) == Utf8Encode(s) + Utf8Encode(t)
  {
    if s == [] {
      assert s + t == t;
    } else {
      Utf8EncodeAppend(s[1..], t);
      assert (s + t)[0] == s[0] && (s + t)[1..] == s[1..] + t;
    }
  }

  /** Encoding works character by character. */
  lemma QuotePlusAppend(s: string, t: string)
    ensures QuotePlus(s + t) == QuotePlus(s) + QuotePlus(t)
  {
    Utf8EncodeAppend(s, t);
    QuoteBytesAppend(Utf8Encode(s), Utf8Encode(t));
  }

  lemma QuotePlusSingle(c: char)
    ensures QuotePlus([c]) == QuoteBytes(Utf8(c))
  {
    var s := [c];
    assert s[0] == c && s[1..] == [];
    assert Utf8Encode(s) == Utf8(c) + Utf8Encode([]);
    assert Utf8(c) + [] == Utf8(c);
  }

  /** A space becomes '+'; a character outside the unreserved set other than
      space becomes '%' escapes, three characters per UTF-8 byte. */
  lemma QuotePlusChar(c: char)
    ensures c == ' ' ==> QuotePlus([c]) == "+"
    ensures !Unreserved(c) && c != ' ' ==>
      |QuotePlus([c])| == 3 * |Utf8(c)| && QuotePlus([c])[0] == '%'
  {
    var bs := Utf8(c);
    QuotePlusSingle(c);
    if c == ' ' {
      assert bs == [32 as byte];
      assert QuoteBytes(bs) == QuoteByte(32 as byte) + QuoteBytes([]);
    } else if !Unreserved(c) {
      assert !Unreserved(bs[0] as int as char) && bs[0] != 32 by {
        if |bs| == 1 {
          assert bs[0] as int as char == c;
        }
      }
      EscapedLength(bs);
      var head := QuoteByte(bs[0]);
      assert head[0] == '%';
      assert QuoteBytes(bs) == head + QuoteBytes(bs[1..]);
      assert QuoteBytes(bs)[0] == head[0];
    }
  }

  /** Bytes that are neither unreserved nor a space, followed by
      continuation bytes, are escaped three characters apiece. */
  lemma {:induction false} EscapedLength(bs: seq<byte>)
    requires |bs| > 0 && !Unreserved(bs[0] as int as char) && bs[0] != 32
    requires forall i :: 1 <= i < |bs| ==> Continuation(bs[i])
    ensures |QuoteBytes(bs)| == 3 * |bs|
  {
    if |bs| > 1 {
      assert bs[1..][0] == bs[1];
      EscapedLength(bs[1..]);
    }
  }

  // ---------------------------------------------------------------------
  // Settings.database_url
  // ---------------------------------------------------------------------

  datatype Settings = Settings(dbUser: string, dbPassword: string, dbHost: string, dbName: string)

  const Scheme := "mongodb+srv://"
  const QueryOptions := "/?retryWrites=true&w=majority&appName="

  /** `database_url`: only the password is encoded. */
  function DatabaseUrl(s: Settings): (url: string)
    ensures |url| == |Scheme| + |s.dbUser| + 1 + |QuotePlus(s.dbPassword)| + 1 + |s.dbHost| + |QueryOptions| + |s.dbName|
    ensures url[..|Scheme|] == Scheme && url[|url| - |s.dbName|..] == s.dbName
  {
    Scheme + s.dbUser + ":" + QuotePlus(s.dbPassword) + "@" + s.dbHost + QueryOptions + s.dbName
  }

  /** The text before and after the first `c` in `s`. */
  function SplitAt(s: string, c: char): (r: Option<(string, string)>)
    ensures r.None? <==> c !in s
    ensures r.Some? ==> s == r.value.0 + [c] + r.value.1 && c !in r.value.0
  {
    if s == [] then None
    else if s[0] == c then Some(([], s[1..]))
    else
      match SplitAt(s[1..], c)
      case None => None
      case Some((x, y)) => Some(([s[0]] + x, y))
  }

  lemma {:induction false} SplitAtFirst(a: string, c: char, b: string)
    requires c !in a
    ensures SplitAt(a + [c] + b, c) == Some((a, b))
  {
    if a == [] {
      assert a + [c] + b == [c] + b;
    } else {
      SplitAtFirst(a[1..], c, b);
      assert (a + [c] + b)[0] == a[0] && (a + [c] + b)[1..] == a[1..] + [c] + b;
      assert a == [a[0]] + a[1..];
    }
  }

  /** Reads the settings back out of a connection string. */
  function ParseDatabaseUrl(url: string): Option<Settings> {
    if |url| < |Scheme| || url[..|Scheme|] != Scheme then None
    else
      match SplitAt(url[|Scheme|..], ':')
      case None => None
      case Some((user, afterUser)) =>
        match SplitAt(afterUser, '@')
        case None => None
        case Some((encoded, afterPassword)) =>
          match SplitAt(afterPassword, '/')
          case None => None
          case Some((host, afterHost)) =>
            var options := QueryOptions[1..];
            if |afterHost| < |options| || afterHost[..|options|] != options then None
            else
              match UnquotePlus(encoded)
              case None => None
              case Some(password) => Some(Settings(user, password, host, afterHost[|options|..]))
  }

  /** When the unencoded user holds no ':' and the host no '/', the
      connection string determines every setting, the password included. */
  lemma DatabaseUrlRoundTrip(s: Settings)
    requires ':' !in s.dbUser && '/' !in s.dbHost
    ensures ParseDatabaseUrl(DatabaseUrl(s)) == Some(s)
  {
    var enc := QuotePlus(s.dbPassword);
    assert '@' !in enc by {
      forall i | 0 <= i < |enc| ensures enc[i] != '@' { }
    }
    QuotePlusRoundTrip(s.dbPassword);
    UrlShape(s);
    ParseAuthority(s.dbUser, enc, s.dbHost, s.dbName, s.dbPassword);
  }

  /** The connection string with its parts grouped from the right. */
  lemma UrlShape(s: Settings)
    ensures DatabaseUrl(s) == Scheme + (s.dbUser + [':'] + (QuotePlus(s.dbPassword) + ['@'] +
      (s.dbHost + ['/'] + (QueryOptions[1..] + s.dbName))))
  {
    var options := QueryOptions[1..];
    assert QueryOptions == ['/'] + options;
    Regroup(Scheme, s.dbUser, ":", QuotePlus(s.dbPassword), "@", s.dbHost, ['/'], options, s.dbName);
  }

  lemma Regroup<T>(a: seq<T>, u: seq<T>, x: seq<T>, e: seq<T>, y: seq<T>, h: seq<T>, z: seq<T>, o: seq<T>, n: seq<T>)
    ensures a + u + x + e + y + h + (z + o) + n == a + (u + x + (e + y + (h + z + (o + n))))
  {
  }

  lemma ParseAuthority(user: string, enc: string, host: string, name: string, password: string)
    requires ':' !in user && '@' !in enc && '/' !in host
    requires UnquotePlus(enc) == Some(password)
    ensures ParseDatabaseUrl(Scheme + (user + [':'] + (enc + ['@'] + (host + ['/'] + (QueryOptions[1..] + name)))))
      == Some(Settings(user, password, host, name))
  {
    var options := QueryOptions[1..];
    var afterHost := options + name;
    var afterPassword := host + ['/'] + afterHost;
    var afterUser := enc + ['@'] + afterPassword;
    var rest := user + [':'] + afterUser;
    PrefixStripped(Scheme, rest);
    SplitAtFirst(user, ':', afterUser);
    SplitAtFirst(enc, '@', afterPassword);
    SplitAtFirst(host, '/', afterHost);
    PrefixStripped(options, name);
  }

  lemma PrefixStripped(prefix: string, rest: string)
    ensures |prefix + rest| >= |prefix|
    ensures (prefix + rest)[..|prefix|] == prefix && (prefix + rest)[|prefix|..] == rest
  {
  }
}

=== FILE: export_foraging.dfy ===
/** The CSV exports of the behaviour analysis
    (predictive_model/py_files/export_foraging_areas.py): the per-row
    flags and speed bucket of the detailed export, and the hotspot
    summary, which bins foraging rows on a 0.1 degree grid, aggregates each
    bin and sorts the bins by foraging intensity. File output and the
    display rounding of the columns are left out. */
module ExportForaging {
  import opened Wrappers
  import opened Seqs

  /** The columns of the analysed frame that the exports read. */
  datatype EnhancedRow = EnhancedRow(
    sharkId: string, latitude: real, longitude: real, datetime: int, behavior: string,
    predictedState: int, stateProbability0: real, stateProbability1: real, stateUncertainty: real,
    speedKmDay: real, stepLength: real, chlorA: real, carbonPhyto: real, poc: real, sst: real,
    waterDepth: real, eddySpeed: real)

  datatype SpeedCategory = Low | Medium | High | VeryHigh

  /** A row of the detailed export: the selected columns and the derived ones. */
  datatype ExportRow = ExportRow(
    columns: EnhancedRow, isForaging: int, isMigrating: int, confidence: real, highConfidence: int,
    speedCategory: Option<SpeedCategory>)

  const ForagingLabel := "Foraging"
  const MigratingLabel := "Migrating"
  const HighConfidenceThreshold := 0.7

  // ---------------------------------------------------------------------
  // export_foraging_areas_csv
  // ---------------------------------------------------------------------

  function Rank(c: SpeedCategory): nat {
    match c
    case Low => 0
    case Medium => 1
    case High => 2
    case VeryHigh => 3
  }

  /** `pd.cut` with bins 0, 50, 150, 300, 2000: intervals closed on the
      right, open on the left; a speed outside (0, 2000] has no category. */
  function SpeedCategoryOf(speed: real): (c: Option<SpeedCategory>)
    ensures c.None? <==> speed <= 0.0 || speed > 2000.0
    ensures c == Some(Low) <==> 0.0 < speed <= 50.0
    ensures c == Some(Medium) <==> 50.0 < speed <= 150.0
    ensures c == Some(High) <==> 150.0 < speed <= 300.0
    ensures c == Some(VeryHigh) <==> 300.0 < speed <= 2000.0
  {
    if speed <= 0.0 || speed > 2000.0 then None
    else if speed <= 50.0 then Some(Low)
    else if speed <= 150.0 then Some(Medium)
    else if speed <= 300.0 then Some(High)
    else Some(VeryHigh)
  }

  /** The buckets are ordered like the speeds. */
  lemma SpeedCategoryMonotone(s1: real, s2: real)
    requires s1 <= s2
    requires SpeedCategoryOf(s1).Some? && SpeedCategoryOf(s2).Some?
    ensures Rank(SpeedCategoryOf(s1).value) <= Rank(SpeedCategoryOf(s2).value)
  {
  }

  /** The derived columns of one row. */
  function Derive(r: EnhancedRow): (e: ExportRow)
    ensures e.columns == r
    ensures e.isForaging == 1 <==> r.behavior == ForagingLabel
    ensures e.isForaging == 0 <==> r.behavior != ForagingLabel
    ensures e.isMigrating == 1 <==> r.behavior == MigratingLabel
    ensures e.isMigrating == 0 <==> r.behavior != MigratingLabel
    ensures e.confidence + r.stateUncertainty == 1.0
    ensures e.highConfidence == 1 <==> e.confidence >= HighConfidenceThreshold
    ensures e.highConfidence == 0 <==> e.confidence < HighConfidenceThreshold
    ensures e.speedCategory == SpeedCategoryOf(r.speedKmDay)
  {
    var confidence := 1.0 - r.stateUncertainty;
    ExportRow(
      r,
      if r.behavior == ForagingLabel then 1 else 0,
      if r.behavior == MigratingLabel then 1 else 0,
      confidence,
      if confidence >= HighConfidenceThreshold then 1 else 0,
      SpeedCategoryOf(r.speedKmDay))
  }

  /** No row is flagged both foraging and migrating. */
  lemma FlagsExclusive(r: EnhancedRow)
    ensures Derive(r).isForaging + Derive(r).isMigrating <= 1
  {
    assert ForagingLabel[0] != MigratingLabel[0];
  }

  /** The detailed export: one output row per input row, in order. */
  method ExportForagingAreas(df: seq<EnhancedRow>) returns (rows: seq<ExportRow>)
    ensures |rows| == |df|
    ensures forall i :: 0 <= i < |df| ==> rows[i] == Derive(df[i])
  {
    rows := [];
    var i := 0;
    while i < |df|
      invariant 0 <= i <= |df|
      invariant |rows| == i
      invariant forall j :: 0 <= j < i ==> rows[j] == Derive(df[j])
    {
      rows := rows + [Derive(df[i])];
      i := i + 1;
    }
  }

  // ---------------------------------------------------------------------
  // create_foraging_summary_csv
  // ---------------------------------------------------------------------

  /** numpy's `round`: to the nearest integer, ties to the even one. */
  function RoundHalfEven(x: real): (n: int)
    ensures x - 0.5 <= n as real <= x + 0.5
    ensures (n as real == x - 0.5 || n as real == x + 0.5) ==> n % 2 == 0
  {
    var f := x.Floor;
    var d := x - f as real;
    if d < 0.5 then f
    else if d > 0.5 then f + 1
    else if f % 2 == 0 then f
    else f + 1
  }

  /** The 0.1 degree cell of a row, as tenths of a degree:
      `round(latitude / 0.1)` and `round(longitude / 0.1)`. */
  function BinOf(r: EnhancedRow): (b: (int, int))
    ensures r.latitude * 10.0 - 0.5 <= b.0 as real <= r.latitude * 10.0 + 0.5
    ensures r.longitude * 10.0 - 0.5 <= b.1 as real <= r.longitude * 10.0 + 0.5
  {
    (RoundHalfEven(r.latitude * 10.0), RoundHalfEven(r.longitude * 10.0))
  }

  function BehaviorOf(r: EnhancedRow): string { r.behavior }
  function SharkOf(r: EnhancedRow): string { r.sharkId }
  function UncertaintyOf(r: EnhancedRow): real { r.stateUncertainty }
  function SpeedOf(r: EnhancedRow): real { r.speedKmDay }
  function ChlorAOf(r: EnhancedRow): real { r.chlorA }
  function CarbonPhytoOf(r: EnhancedRow): real { r.carbonPhyto }
  function PocOf(r: EnhancedRow): real { r.poc }
  function SstOf(r: EnhancedRow): real { r.sst }
  function WaterDepthOf(r: EnhancedRow): real { r.waterDepth }
  function EddySpeedOf(r: EnhancedRow): real { r.eddySpeed }

  function Sum(xs: seq<real>): real {
    if xs == [] then 0.0 else Sum(xs[..|xs| - 1]) + xs[|xs| - 1]
  }

  function Mean(xs: seq<real>): real
    requires |xs| > 0
  {
    Sum(xs) / |xs| as real
  }

  lemma {:induction false} SumBounds(xs: seq<real>, lo: real, hi: real)
    requires forall i :: 0 <= i < |xs| ==> lo <= xs[i] <= hi
    ensures |xs| as real * lo <= Sum(xs) <= |xs| as real * hi
  {
    if xs != [] {
      var init := xs[..|xs| - 1];
      assert forall i :: 0 <= i < |init| ==> init[i] == xs[i];
      SumBounds(init, lo, hi);
      assert |xs| as real * lo == |init| as real * lo + lo;
      assert |xs| as real * hi == |init| as real * hi + hi;
    }
  }

  /** A mean lies within any bounds of its values. */
  lemma MeanBounds(xs: seq<real>, lo: real, hi: real)
    requires |xs| > 0
    requires forall i :: 0 <= i < |xs| ==> lo <= xs[i] <= hi
    ensures lo <= Mean(xs) <= hi
  {
    SumBounds(xs, lo, hi);
    var n := |xs| as real;
    assert Sum(xs) / n >= lo by {
      assert Sum(xs) >= n * lo;
    }
    assert Sum(xs) / n <= hi by {
      assert Sum(xs) <= n * hi;
    }
  }

  /** A row of the hotspot summary. */
  datatype SummaryRow = SummaryRow(
    latitude: real, longitude: real, uniqueSharks: nat, foragingObservations: nat,
    avgUncertainty: real, avgSpeedKmDay: real, avgChlorA: real, avgCarbonPhyto: real,
    avgPoc: real, avgSst: real, avgWaterDepth: real, avgEddySpeed: real,
    avgConfidence: real, foragingIntensity: real, sharkDiversity: real)

  /** The computed columns of a summary row: the confidence is one minus the
      mean uncertainty, the intensity is the observations weighted by it. */
  predicate DerivedColumns(row: SummaryRow) {
    && row.avgConfidence == 1.0 - row.avgUncertainty
    && row.foragingIntensity == row.foragingObservations as real * row.avgConfidence
  }

  /** The mean of one column over a non-empty group (`agg('mean')`). */
  function ColumnMean(group: seq<EnhancedRow>, column: EnhancedRow -> real): real
    requires |group| > 0
  {
    Mean(Project(group, column))
  }

  /** The share of distinct sharks among the observations of a bin. */
  function Diversity(unique: nat, n: nat): (d: real)
    requires 1 <= unique <= n
    ensures 0.0 < d <= 1.0
    ensures d * n as real == unique as real
  {
    unique as real / n as real
  }

  /** The `agg('mean')` columns of a summary row over its group. */
  predicate ColumnMeans(row: SummaryRow, group: seq<EnhancedRow>)
    requires |group| > 0
  {
    && row.avgSpeedKmDay == ColumnMean(group, SpeedOf)
    && row.avgChlorA == ColumnMean(group, ChlorAOf)
    && row.avgCarbonPhyto == ColumnMean(group, CarbonPhytoOf)
    && row.avgPoc == ColumnMean(group, PocOf)
    && row.avgSst == ColumnMean(group, SstOf)
    && row.avgWaterDepth == ColumnMean(group, WaterDepthOf)
    && row.avgEddySpeed == ColumnMean(group, EddySpeedOf)
  }

  /** The summary row of a non-empty bin group, given its mean uncertainty:
      the cell centre, the counts, the column means and the derived
      confidence, intensity and diversity. */
  function SummaryOf(bin: (int, int), unique: nat, group: seq<EnhancedRow>, avgUncertainty: real): (row: SummaryRow)
    requires 1 <= unique <= |group|
    ensures row.foragingObservations == |group| && row.uniqueSharks == unique
    ensures row.avgUncertainty == avgUncertainty
    ensures 0.0 < row.sharkDiversity <= 1.0
    ensures row.sharkDiversity == Diversity(unique, |group|)
    ensures row.latitude == bin.0 as real / 10.0 && row.longitude == bin.1 as real / 10.0
    ensures ColumnMeans(row, group)
    ensures DerivedColumns(row)
  {
    var n := |group|;
    var avgConfidence := 1.0 - avgUncertainty;
    SummaryRow(
      bin.0 as real / 10.0, bin.1 as real / 10.0, unique, n,
      avgUncertainty, ColumnMean(group, SpeedOf), ColumnMean(group, ChlorAOf),
      ColumnMean(group, CarbonPhytoOf), ColumnMean(group, PocOf), ColumnMean(group, SstOf),
      ColumnMean(group, WaterDepthOf), ColumnMean(group, EddySpeedOf),
      avgConfidence, n as real * avgConfidence, Diversity(unique, n))
  }

  /** The aggregate of the foraging rows of one bin. */
  function BinSummary(foraging: seq<EnhancedRow>, bin: (int, int)): (row: SummaryRow)
    requires bin in Project(foraging, BinOf)
    ensures row.foragingObservations == |Select(foraging, BinOf, bin)| >= 1
    ensures row.uniqueSharks == |Distinct(Project(Select(foraging, BinOf, bin), SharkOf))|
    ensures 1 <= row.uniqueSharks <= row.foragingObservations
    ensures 0.0 < row.sharkDiversity <= 1.0
    ensures row.avgUncertainty == ColumnMean(Select(foraging, BinOf, bin), UncertaintyOf)
    ensures row.latitude == bin.0 as real / 10.0 && row.longitude == bin.1 as real / 10.0
    ensures row.sharkDiversity == Diversity(row.uniqueSharks, row.foragingObservations)
    ensures ColumnMeans(row, Select(foraging, BinOf, bin))
    ensures DerivedColumns(row)
  {
    SelectNonEmpty(foraging, BinOf, bin);
    var group := Select(foraging, BinOf, bin);
    var sharks := Project(group, SharkOf);
    assert sharks[0] in Distinct(sharks);
    SummaryOf(bin, |Distinct(sharks)|, group, ColumnMean(group, UncertaintyOf))
  }

  function SummaryFor(foraging: seq<EnhancedRow>): ((int, int)) --> SummaryRow {
    bin requires bin in Project(foraging, BinOf) => BinSummary(foraging, bin)
  }

  /** With uncertainties in [0, 1], a bin's intensity lies between zero and
      its number of observations. */
  lemma IntensityBounds(foraging: seq<EnhancedRow>, bin: (int, int))
    requires bin in Project(foraging, BinOf)
    requires forall r :: r in foraging ==> 0.0 <= UncertaintyOf(r) <= 1.0
    ensures 0.0 <= BinSummary(foraging, bin).foragingIntensity <= BinSummary(foraging, bin).foragingObservations as real
  {
    var group := Select(foraging, BinOf, bin);
    SelectNonEmpty(foraging, BinOf, bin);
    SelectSubset(foraging, BinOf, bin);
    var us := Project(group, UncertaintyOf);
    forall i | 0 <= i < |us|
      ensures 0.0 <= us[i] <= 1.0
    {
      assert group[i] in foraging;
    }
    MeanBounds(us, 0.0, 1.0);
    var row := BinSummary(foraging, bin);
    assert 0.0 <= row.avgConfidence <= 1.0;
    IntensityWithinObservations(row);
  }

  lemma IntensityWithinObservations(row: SummaryRow)
    requires DerivedColumns(row) && 0.0 <= row.avgConfidence <= 1.0
    ensures 0.0 <= row.foragingIntensity <= row.foragingObservations as real
  {
    ScaleWithin(row.foragingObservations, row.avgConfidence);
  }

  /** `k` copies of a fraction in [0, 1] add up to between 0 and `k`. */
  lemma {:induction false} ScaleWithin(k: nat, c: real)
    requires 0.0 <= c <= 1.0
    ensures 0.0 <= k as real * c <= k as real
  {
    if k > 0 {
      ScaleWithin(k - 1, c);
      assert k as real * c == (k - 1) as real * c + c;
    }
  }

  /** The aggregates of the given bins, in the given order. */
  function AggregateBins(foraging: seq<EnhancedRow>, bins: seq<(int, int)>): (r: seq<SummaryRow>)
    requires forall i :: 0 <= i < |bins| ==> bins[i] in Project(foraging, BinOf)
    ensures |r| == |bins|
    ensures forall i :: 0 <= i < |bins| ==> r[i] == BinSummary(foraging, bins[i])
  {
    MapSeq(bins, SummaryFor(foraging))
  }

  predicate Descending<T>(s: seq<T>, weight: T -> real) {
    forall i, j :: 0 <= i < j < |s| ==> weight(s[i]) >= weight(s[j])
  }

  /** `x` placed into a sequence sorted by decreasing weight, before the
      first element of lower weight. */
  function InsertDescending<T>(x: T, s: seq<T>, weight: T -> real): (r: seq<T>)
    requires Descending(s, weight)
    ensures Descending(r, weight)
    ensures multiset(r) == multiset(s) + multiset{x}
    ensures |r| == |s| + 1
    ensures r[0] == if s != [] && weight(s[0]) > weight(x) then s[0] else x
  {
    if s == [] || weight(x) >= weight(s[0]) then [x] + s
    else
      var t := InsertDescending(x, s[1..], weight);
      DescendingBehindHead(x, s, t, weight);
      [s[0]] + t
  }

  /** Putting back the head of `s` in front of the insertion into its tail. */
  lemma DescendingBehindHead<T>(x: T, s: seq<T>, t: seq<T>, weight: T -> real)
    requires Descending(s, weight) && s != [] && weight(x) < weight(s[0])
    requires Descending(t, weight) && |t| == |s|
    requires multiset(t) == multiset(s[1..]) + multiset{x}
    requires t[0] == if |s| > 1 && weight(s[1]) > weight(x) then s[1] else x
    ensures Descending([s[0]] + t, weight)
    ensures multiset([s[0]] + t) == multiset(s) + multiset{x}
  {
    assert s == [s[0]] + s[1..];
    var r := [s[0]] + t;
    forall i, j | 0 <= i < j < |r| ensures weight(r[i]) >= weight(r[j]) {
      if i > 0 {
        assert r[i] == t[i - 1] && r[j] == t[j - 1];
      } else {
        assert r[j] == t[j - 1] && weight(t[0]) >= weight(t[j - 1]);
      }
    }
  }

  /** Insertion sort by decreasing weight: sorted, and a permutation of its input. */
  function SortDescending<T>(s: seq<T>, weight: T -> real): (r: seq<T>)
    ensures Descending(r, weight)
    ensures multiset(r) == multiset(s)
    ensures |r| == |s|
  {
    if s == [] then []
    else
      assert s == [s[0]] + s[1..];
      InsertDescending(s[0], SortDescending(s[1..], weight), weight)
  }

  function IntensityOf(row: SummaryRow): real { row.foragingIntensity }

  /** `sort_values('foraging_intensity', ascending=False)`. */
  function SortByIntensity(s: seq<SummaryRow>): (r: seq<SummaryRow>)
    ensures Descending(r, IntensityOf)
    ensures multiset(r) == multiset(s)
  {
    SortDescending(s, IntensityOf)
  }

  /** The foraging rows of the analysed frame. */
  function ForagingRows(df: seq<EnhancedRow>): (f: seq<EnhancedRow>)
    ensures |f| <= |df|
    ensures forall r :: r in f <==> r in df && r.behavior == ForagingLabel
  {
    forall r ensures r in Select(df, BehaviorOf, ForagingLabel) <==> r in df && r.behavior == ForagingLabel {
      SelectMembership(df, BehaviorOf, ForagingLabel, r);
    }
    Select(df, BehaviorOf, ForagingLabel)
  }

  /** The distinct bins of the foraging rows, by first appearance. */
  function Bins(foraging: seq<EnhancedRow>): (bins: seq<(int, int)>)
    ensures NoDuplicates(bins)
    ensures forall i :: 0 <= i < |bins| ==> bins[i] in Project(foraging, BinOf)
    ensures forall r :: r in foraging ==> BinOf(r) in bins
  {
    var keys := Project(foraging, BinOf);
    forall r | r in foraging
      ensures BinOf(r) in Distinct(keys)
    {
      var i :| 0 <= i < |foraging| && foraging[i] == r;
      assert keys[i] == BinOf(r);
    }
    Distinct(Project(foraging, BinOf))
  }

  /** `create_foraging_summary_csv`: `None` without foraging rows, else the
      bins' aggregates from the most to the least intense. */
  function CreateForagingSummary(df: seq<EnhancedRow>): (r: Option<seq<SummaryRow>>)
    ensures r.None? <==> forall i :: 0 <= i < |df| ==> df[i].behavior != ForagingLabel
    ensures r.Some? ==> Descending(r.value, IntensityOf)
    ensures r.Some? ==> multiset(r.value) == multiset(AggregateBins(ForagingRows(df), Bins(ForagingRows(df))))
  {
    ForagingRowsEmpty(df);
    var foraging := ForagingRows(df);
    if |foraging| == 0 then None
    else Some(SortByIntensity(AggregateBins(foraging, Bins(foraging))))
  }

  lemma {:induction false} ForagingRowsEmpty(df: seq<EnhancedRow>)
    ensures ForagingRows(df) == [] <==> forall i :: 0 <= i < |df| ==> df[i].behavior != ForagingLabel
  {
    if df != [] {
      var init := df[..|df| - 1];
      ForagingRowsEmpty(init);
      assert forall i :: 0 <= i < |init| ==> init[i] == df[i];
    }
  }

  /** Every hotspot row has at least one shark, no more sharks than
      observations, and so a diversity in (0, 1]. */
  lemma SummaryRowBounds(df: seq<EnhancedRow>, k: nat)
    requires CreateForagingSummary(df).Some? && k < |CreateForagingSummary(df).value|
    ensures var row := CreateForagingSummary(df).value[k];
      1 <= row.uniqueSharks <= row.foragingObservations && 0.0 < row.sharkDiversity <= 1.0
  {
    var foraging := ForagingRows(df);
    var agg := AggregateBins(foraging, Bins(foraging));
    var i := PermutationMember(CreateForagingSummary(df).value, agg, k);
  }

  /** Rows of any other behaviour do not change the summary. */
  lemma OnlyForagingRowsCount(df: seq<EnhancedRow>, row: EnhancedRow)
    requires row.behavior != ForagingLabel
    ensures CreateForagingSummary(df + [row]) == CreateForagingSummary(df)
  {
    assert (df + [row])[..|df|] == df;
    assert ForagingRows(df + [row]) == ForagingRows(df);
  }

  function TotalObservations(s: seq<SummaryRow>): nat {
    if s == [] then 0 else TotalObservations(s[..|s| - 1]) + s[|s| - 1].foragingObservations
  }

  lemma {:induction false} TotalObservationsPrepend(x: SummaryRow, s: seq<SummaryRow>)
    ensures TotalObservations([x] + s) == x.foragingObservations + TotalObservations(s)
  {
    if s != [] {
      var init := s[..|s| - 1];
      TotalObservationsPrepend(x, init);
      assert ([x] + s)[..|s|] == [x] + init;
    }
  }

  lemma {:induction false} TotalObservationsInsert(x: SummaryRow, s: seq<SummaryRow>)
    requires Descending(s, IntensityOf)
    ensures TotalObservations(InsertDescending(x, s, IntensityOf)) == x.foragingObservations + TotalObservations(s)
  {
    if s == [] || x.foragingIntensity >= s[0].foragingIntensity {
      TotalObservationsPrepend(x, s);
    } else {
      var t := InsertDescending(x, s[1..], IntensityOf);
      TotalObservationsInsert(x, s[1..]);
      TotalObservationsPrepend(s[0], t);
      TotalObservationsPrepend(s[0], s[1..]);
      assert s == [s[0]] + s[1..];
    }
  }

  lemma {:induction false} TotalObservationsSort(s: seq<SummaryRow>)
    ensures TotalObservations(SortDescending(s, IntensityOf)) == TotalObservations(s)
  {
    if s != [] {
      TotalObservationsSort(s[1..]);
      TotalObservationsInsert(s[0], SortDescending(s[1..], IntensityOf));
      TotalObservationsPrepend(s[0], s[1..]);
      assert s == [s[0]] + s[1..];
    }
  }

  lemma {:induction false} TotalObservationsAggregate(foraging: seq<EnhancedRow>, bins: seq<(int, int)>)
    requires forall i :: 0 <= i < |bins| ==> bins[i] in Project(foraging, BinOf)
    ensures TotalObservations(AggregateBins(foraging, bins)) == TotalSelected(foraging, BinOf, bins)
  {
    if bins != [] {
      TotalObservationsAggregate(foraging, bins[..|bins| - 1]);
      var r := AggregateBins(foraging, bins);
      assert r[..|r| - 1] == AggregateBins(foraging, bins[..|bins| - 1]);
    }
  }

  /** The hotspots together account for every foraging row exactly once. */
  lemma SummaryCountsEveryForagingRow(df: seq<EnhancedRow>)
    requires CreateForagingSummary(df).Some?
    ensures TotalObservations(CreateForagingSummary(df).value) == |ForagingRows(df)|
  {
    var foraging := ForagingRows(df);
    TotalObservationsSort(AggregateBins(foraging, Bins(foraging)));
    TotalObservationsAggregate(foraging, Bins(foraging));
    PartitionSize(foraging, BinOf);
  }
}

=== FILE: json.dfy ===
/** The scalar JSON values that reach the API and the Lambda handler, with
    Python's truthiness and `str()` on them. */
module Json {

  /** A float is carried by its Python `repr` text (for example "0.5"); its
      arithmetic plays no part in the code modelled here. */
  datatype Value = Null | Bool(b: bool) | Int(i: int) | Float(repr: string) | Str(s: string)

  /** Python's `bool(v)`. */
  predicate Truthy(v: Value) {
    match v
    case Null => false
    case Bool(b) => b
    case Int(i) => i != 0
    case Float(r) => r != "0.0" && r != "-0.0"
    case Str(s) => s != ""
  }

  function DigitChar(d: nat): (c: char)
    requires d < 10
    ensures '0' <= c <= '9'
  {
    "0123456789"[d]
  }

  /** Decimal digits of `n`, most significant first, without leading zeros. */
  function Digits(n: nat): (r: string)
    ensures |r| >= 1
    ensures forall i :: 0 <= i < |r| ==> '0' <= r[i] <= '9'
  {
    if n < 10 then [DigitChar(n)] else Digits(n / 10) + [DigitChar(n % 10)]
  }

  /** Python's `str(v)`. */
  function PyStr(v: Value): (r: string)
    ensures v.Str? ==> r == v.s
  {
    match v
    case Null => "None"
    case Bool(b) => if b then "True" else "False"
    case Int(i) => if i < 0 then "-" + Digits(-i) else Digits(i)
    case Float(r) => r
    case Str(s) => s
  }
}

=== FILE: pace_names.dfy ===
/** The readable acquisition time that the PACE inspection script derives
    from a granule file name
    (predictive_model/py_files/inspect_all_pace_files.py). The regular
    expression `\.(\d{8}T\d{6})\.` has a fixed width of 17 characters, so a
    search for it is a scan for the leftmost position where those 17
    characters fit. Digits are the ASCII digits. */
module PaceFileNames {
  import opened Wrappers

  /** '.', eight digits, 'T', six digits, '.'. */
  const MatchLength: nat := 17

  predicate IsDigit(c: char) {
    '0' <= c <= '9'
  }

  predicate AllDigits(s: string) {
    forall i :: 0 <= i < |s| ==> IsDigit(s[i])
  }

  /** The pattern matches `name` at position `p`. */
  predicate MatchAt(name: string, p: nat) {
    && p + MatchLength <= |name|
    && name[p] == '.'
    && AllDigits(name[p + 1..p + 9])
    && name[p + 9] == 'T'
    && AllDigits(name[p + 10..p + 16])
    && name[p + 16] == '.'
  }

  /** `re.search` from position `from`: the leftmost match, if any. */
  function Search(name: string, from: nat): (r: Option<nat>)
    decreases |name| - from
    ensures r.Some? ==> from <= r.value && MatchAt(name, r.value)
    ensures r.Some? ==> forall q :: from <= q < r.value ==> !MatchAt(name, q)
    ensures r.None? <==> forall q :: from <= q ==> !MatchAt(name, q)
  {
    if from + MatchLength > |name| then None
    else if MatchAt(name, from) then Some(from)
    else Search(name, from + 1)
  }

  /** Position of the `j`th of the 14 digits in "YYYY-MM-DD HH:MM:SS":
      the first four, then two after each separator. */
  function DigitPosition(j: nat): (i: nat)
    requires j < 14
    ensures i < 19 && i != 4 && i != 7 && i != 10 && i != 13 && i != 16
  {
    if j < 4 then j else j + j / 2 - 1
  }

  /** The digits of a captured "YYYYMMDDTHHMMSS" group, without the 'T'. */
  function StampDigits(t: string): string
    requires |t| == 15
  {
    t[..8] + t[9..]
  }

  /** The f-string of the script over the captured group `t`. */
  function Format(t: string): (r: string)
    requires |t| == 15
    ensures |r| == 19
    ensures r[4] == '-' && r[7] == '-' && r[10] == ' ' && r[13] == ':' && r[16] == ':'
    ensures forall j :: 0 <= j < 14 ==> r[DigitPosition(j)] == StampDigits(t)[j]
  {
    t[0..4] + "-" + t[4..6] + "-" + t[6..8] + " " + t[9..11] + ":" + t[11..13] + ":" + t[13..15]
  }

  /** Reads the captured group back out of a formatted time. */
  function Unformat(r: string): string
    requires |r| == 19
  {
    r[0..4] + r[5..7] + r[8..10] + "T" + r[11..13] + r[14..16] + r[17..19]
  }

  /** Formatting loses nothing: the captured group can be recovered. */
  lemma FormatInverse(t: string)
    requires |t| == 15 && t[8] == 'T'
    ensures Unformat(Format(t)) == t
  {
    var u := Unformat(Format(t));
    assert |u| == 15;
    forall i | 0 <= i < 15
      ensures u[i] == t[i]
    {
      if i == 8 {
      } else {
        var j := if i < 8 then i else i - 1;
        assert u[i] == Format(t)[DigitPosition(j)];
      }
    }
  }

  /** `nice_time_from_name`: the formatted timestamp of the leftmost match,
      or the name itself when nothing matches. */
  function NiceTimeFromName(fname: string): (r: string)
    ensures (forall q :: !MatchAt(fname, q)) ==> r == fname
    ensures (exists q :: MatchAt(fname, q)) ==>
      |r| == 19 && r[4] == '-' && r[7] == '-' && r[10] == ' ' && r[13] == ':' && r[16] == ':'
  {
    match Search(fname, 0)
    case None => fname
    case Some(p) => Format(fname[p + 1..p + 16])
  }

  /** Only the leftmost match counts: its timestamp is the one formatted
      (so, by `Format`, the result holds its 14 digits in order, with the
      'T' dropped), and those are all digits. */
  lemma LeftmostMatchUsed(fname: string, p: nat)
    requires MatchAt(fname, p)
    requires forall q: nat :: q < p ==> !MatchAt(fname, q)
    ensures NiceTimeFromName(fname) == Format(fname[p + 1..p + 16])
    ensures AllDigits(StampDigits(fname[p + 1..p + 16]))
  {
    var r := Search(fname, 0);
    assert r.Some? && r.value == p;
    var t := fname[p + 1..p + 16];
    forall i | 0 <= i < 14
      ensures IsDigit(StampDigits(t)[i])
    {
      if i < 8 {
        assert StampDigits(t)[i] == fname[p + 1..p + 9][i];
      } else {
        assert StampDigits(t)[i] == fname[p + 10..p + 16][i - 8];
      }
    }
  }

  /** The formatting step of the documented example. */
  lemma ExampleFormat()
    ensures Format("20250803T193141") == "2025-08-03 19:31:41"
  {
    var year, month, day, hour, minute, second := "2025", "08", "03", "19", "31", "41";
    var stamp := year + month + day + "T" + hour + minute + second;
    assert stamp == "20250803T193141";
    assert stamp[0..4] == year && stamp[4..6] == month && stamp[6..8] == day;
    assert stamp[9..11] == hour && stamp[11..13] == minute && stamp[13..15] == second;
    assert Format(stamp) == year + "-" + month + "-" + day + " " + hour + ":" + minute + ":" + second;
  }

  /** The file name of the script's own example, in its parts. */
  const ExampleHead := "PACE_OCI."
  const ExampleDate := "20250803"
  const ExampleTime := "193141"
  const ExampleTail := ".L2.OC_BGC.V3_1.nc"
  const ExampleName := ExampleHead + ExampleDate + "T" + ExampleTime + ExampleTail

  /** The example matches at position 8, the dot after "PACE_OCI". */
  lemma ExampleMatch()
    ensures MatchAt(ExampleName, 8)
    ensures ExampleName[9..24] == "20250803T193141"
  {
    var name := ExampleName;
    assert name[9..24] == ExampleDate + "T" + ExampleTime;
    assert name[9..17] == ExampleDate && name[18..24] == ExampleTime;
    assert AllDigits(ExampleDate) && AllDigits(ExampleTime);
  }

  /** "PACE_OCI" holds no dot, so nothing matches before position 8. */
  lemma ExampleNoEarlierMatch()
    ensures forall q: nat :: q < 8 ==> !MatchAt(ExampleName, q)
  {
    forall q: nat | q < 8
      ensures !MatchAt(ExampleName, q)
    {
      assert ExampleName[q] == ExampleHead[q];
    }
  }

  /** The example of the script's own comment: `ExampleName` spells
      "PACE_OCI.20250803T193141.L2.OC_BGC.V3_1.nc". */
  lemma DocumentedExample()
    ensures NiceTimeFromName(ExampleName) == "2025-08-03 19:31:41"
  {
    ExampleMatch();
    ExampleNoEarlierMatch();
    LeftmostMatchUsed(ExampleName, 8);
    ExampleFormat();
  }
}

=== FILE: preprocess.dfy ===
/** The record-shaping core of the preprocessing pipeline
    (predictive_model/py_files/preprocess_data.py): shark observations are
    assigned PACE dates round-robin, each shark's track becomes one movement
    row per consecutive pair of observations, and the environmental reading
    for a row is taken at the nearest available PACE date and clamped to a
    fixed range per variable.

    Times are whole seconds since the epoch. The NetCDF contents, the
    spherical geometry and the random synthetic models are outside the
    model and enter as function parameters. */
module Preprocess {
  import opened Wrappers
  import opened Seqs

  type Timestamp = int

  const SecondsPerDay: int := 86400
  const SecondsPerHour: int := 3600

  /** One row of the sampled tracking frame. */
  datatype Observation = Observation(id: string, latitude: real, longitude: real, datetime: Timestamp)

  /** A row after `map_shark_to_pace_dates`: `datetime` now holds the PACE
      date, the old value is kept as `originalDatetime`. */
  datatype MappedObservation = MappedObservation(
    id: string, latitude: real, longitude: real,
    datetime: Timestamp, originalDatetime: Timestamp, paceDate: Timestamp)

  // ---------------------------------------------------------------------
  // sorted(pace_data.keys())
  // ---------------------------------------------------------------------

  predicate Ascending(s: seq<Timestamp>) {
    forall i, j :: 0 <= i < j < |s| ==> s[i] <= s[j]
  }

  /** `x` placed into an ascending sequence before the first larger date. */
  function Insert(x: Timestamp, s: seq<Timestamp>): (r: seq<Timestamp>)
    requires Ascending(s)
    ensures Ascending(r)
    ensures multiset(r) == multiset(s) + multiset{x}
    ensures |r| == |s| + 1
    ensures r[0] == if s != [] && s[0] < x then s[0] else x
  {
    if s == [] || x <= s[0] then [x] + s
    else
      var t := Insert(x, s[1..]);
      InsertBehindHead(x, s, t);
      [s[0]] + t
  }

  /** Putting back the head of `s` in front of the insertion into its tail. */
  lemma InsertBehindHead(x: Timestamp, s: seq<Timestamp>, t: seq<Timestamp>)
    requires Ascending(s) && s != [] && s[0] < x
    requires Ascending(t) && |t| == |s|
    requires multiset(t) == multiset(s[1..]) + multiset{x}
    requires t[0] == if |s| > 1 && s[1] < x then s[1] else x
    ensures Ascending([s[0]] + t)
    ensures multiset([s[0]] + t) == multiset(s) + multiset{x}
  {
    assert s == [s[0]] + s[1..];
    var r := [s[0]] + t;
    forall i, j | 0 <= i < j < |r| ensures r[i] <= r[j] {
      if i > 0 {
        assert r[i] == t[i - 1] && r[j] == t[j - 1];
      } else {
        assert r[j] == t[j - 1] && t[0] <= t[j - 1];
      }
    }
  }

  /** Python's `sorted` on a list of dates. */
  function SortedDates(dates: seq<Timestamp>): (r: seq<Timestamp>)
    ensures Ascending(r)
    ensures multiset(r) == multiset(dates)
    ensures |r| == |dates|
  {
    if dates == [] then []
    else
      assert dates == [dates[0]] + dates[1..];
      Insert(dates[0], SortedDates(dates[1..]))
  }

  // ---------------------------------------------------------------------
  // map_shark_to_pace_dates
  // ---------------------------------------------------------------------

  function MapRow(row: Observation, paceDate: Timestamp): MappedObservation {
    MappedObservation(row.id, row.latitude, row.longitude, paceDate, row.datetime, paceDate)
  }

  /** `mapped` is `rows` with row i given the (i mod n)-th smallest of the
      n PACE dates. */
  ghost predicate RoundRobin(rows: seq<Observation>, paceDates: seq<Timestamp>, mapped: seq<MappedObservation>)
    requires paceDates != []
  {
    && |mapped| == |rows|
    && forall i :: 0 <= i < |rows| ==>
         mapped[i] == MapRow(rows[i], SortedDates(paceDates)[i % |paceDates|])
  }

  /** The one frame that satisfies `RoundRobin`. */
  ghost function RoundRobinMapping(rows: seq<Observation>, paceDates: seq<Timestamp>): (mapped: seq<MappedObservation>)
    requires paceDates != []
    ensures RoundRobin(rows, paceDates, mapped)
  {
    seq(|rows|, i requires 0 <= i < |rows| => MapRow(rows[i], SortedDates(paceDates)[i % |paceDates|]))
  }

  /** `RoundRobin` leaves no choice: the mapped frame is determined by the
      rows and the dates. */
  lemma RoundRobinDetermined(rows: seq<Observation>, paceDates: seq<Timestamp>, mapped: seq<MappedObservation>)
    requires paceDates != []
    requires RoundRobin(rows, paceDates, mapped)
    ensures mapped == RoundRobinMapping(rows, paceDates)
  {
  }

  /** `paceDates` are the keys of the PACE data. They must not be empty:
      `min` of the dates fails otherwise, and the pipeline stops before
      calling this when no PACE file was loaded. */
  method MapSharkToPaceDates(rows: seq<Observation>, paceDates: seq<Timestamp>)
    returns (mapped: seq<MappedObservation>)
    requires paceDates != []
    ensures RoundRobin(rows, paceDates, mapped)
  {
    var dates := SortedDates(paceDates);
    var n := |dates|;
    mapped := [];
    var i := 0;
    while i < |rows|
      invariant 0 <= i <= |rows|
      invariant |mapped| == i
      invariant forall j :: 0 <= j < i ==> mapped[j] == MapRow(rows[j], dates[j % n])
    {
      mapped := mapped + [MapRow(rows[i], dates[i % n])];
      i := i + 1;
    }
  }

  /** One output row per input row, in order: each keeps its identity and
      position, remembers its old time as `originalDatetime`, and takes a
      PACE date as its new time. */
  lemma RoundRobinRows(rows: seq<Observation>, paceDates: seq<Timestamp>, mapped: seq<MappedObservation>)
    requires paceDates != []
    requires RoundRobin(rows, paceDates, mapped)
    ensures |mapped| == |rows|
    ensures forall i :: 0 <= i < |rows| ==>
      && mapped[i].id == rows[i].id
      && mapped[i].latitude == rows[i].latitude
      && mapped[i].longitude == rows[i].longitude
      && mapped[i].originalDatetime == rows[i].datetime
      && mapped[i].datetime == mapped[i].paceDate
      && mapped[i].paceDate in paceDates
  {
    var dates := SortedDates(paceDates);
    forall i | 0 <= i < |rows|
      ensures mapped[i].paceDate in paceDates
    {
      assert dates[i % |paceDates|] in multiset(dates);
    }
  }

  /** The dates repeat with period n, the number of PACE dates. */
  lemma RoundRobinPeriodic(rows: seq<Observation>, paceDates: seq<Timestamp>, mapped: seq<MappedObservation>, i: nat)
    requires paceDates != []
    requires RoundRobin(rows, paceDates, mapped)
    requires i + |paceDates| < |rows|
    ensures mapped[i].paceDate == mapped[i + |paceDates|].paceDate
  {
    var dates, n := SortedDates(paceDates), |paceDates|;
    ModPeriod(i, n);
    assert mapped[i].paceDate == dates[i % n];
    assert mapped[i + n].paceDate == dates[(i + n) % n];
  }

  /** The first n rows get the dates in ascending order. */
  lemma RoundRobinFirstCycle(rows: seq<Observation>, paceDates: seq<Timestamp>, mapped: seq<MappedObservation>, i: nat, j: nat)
    requires paceDates != []
    requires RoundRobin(rows, paceDates, mapped)
    requires i < j < |rows| && j < |paceDates|
    ensures mapped[i].paceDate <= mapped[j].paceDate
  {
    var dates, n := SortedDates(paceDates), |paceDates|;
    SmallRemainder(i, n);
    SmallRemainder(j, n);
    assert mapped[i].paceDate == dates[i] && mapped[j].paceDate == dates[j];
  }

  lemma SmallRemainder(i: nat, n: nat)
    requires i < n
    ensures i % n == i
  {
  }

  lemma ModPeriod(i: nat, n: nat)
    requires n > 0
    ensures (i + n) % n == i % n
  {
    var a, b := (i + n) / n, (i + n) % n;
    var c, d := i / n, i % n;
    assert i + n == a * n + b;
    assert i == c * n + d;
    var k := a - c - 1;
    assert k * n == d - b by {
      assert a * n - c * n - n == (a - c - 1) * n;
    }
    SmallMultiple(k, n);
  }

  lemma SmallMultiple(k: int, n: int)
    requires n > 0 && -n < k * n < n
    ensures k == 0
  {
  }

  // ---------------------------------------------------------------------
  // extract_pace_environmental_data: nearest date and clamping
  // ---------------------------------------------------------------------

  function Abs(x: int): nat {
    if x < 0 then -x else x
  }

  /** `abs((x - target).days)`: `timedelta.days` rounds toward negative
      infinity, as Dafny's division by a positive number does. */
  function DayDifference(x: Timestamp, target: Timestamp): (d: nat)
    ensures x >= target ==> d * SecondsPerDay <= x - target < (d + 1) * SecondsPerDay
    ensures x < target ==> (d - 1) * SecondsPerDay < target - x <= d * SecondsPerDay
  {
    Abs((x - target) / SecondsPerDay)
  }

  /** `min(available, key=...)`: the first available date whose day
      difference to `target` is least. */
  function ClosestIndex(available: seq<Timestamp>, target: Timestamp): (k: nat)
    requires |available| > 0
    ensures k < |available|
    ensures forall j :: 0 <= j < |available| ==>
      DayDifference(available[k], target) <= DayDifference(available[j], target)
    ensures forall j :: 0 <= j < k ==>
      DayDifference(available[j], target) > DayDifference(available[k], target)
  {
    if |available| == 1 then 0
    else
      var k := ClosestIndex(available[..|available| - 1], target);
      var last := |available| - 1;
      if DayDifference(available[last], target) < DayDifference(available[k], target) then last else k
  }

  /** The date whose PACE data is used: `paceDate` itself when it is a key,
      otherwise the nearest key. `available` is the dict's key list in
      insertion order, which decides between equally near dates. */
  function ResolvePaceDate(paceDate: Timestamp, available: seq<Timestamp>): (r: Timestamp)
    requires |available| > 0
    ensures r in available
    ensures paceDate in available ==> r == paceDate
    ensures paceDate !in available ==>
      forall j :: 0 <= j < |available| ==>
        DayDifference(r, paceDate) <= DayDifference(available[j], paceDate)
  {
    if paceDate in available then paceDate else available[ClosestIndex(available, paceDate)]
  }

  /** `np.clip(x, lo, hi)`. */
  function Clip(x: real, lo: real, hi: real): (r: real)
    requires lo <= hi
    ensures lo <= r <= hi
    ensures lo <= x <= hi ==> r == x
    ensures x < lo ==> r == lo
    ensures x > hi ==> r == hi
  {
    if x < lo then lo else if x > hi then hi else x
  }

  /** The six environmental variables returned for one location. */
  datatype EnvReading = EnvReading(
    chlorA: real, carbonPhyto: real, poc: real, sst: real, waterDepth: real, eddySpeed: real)

  /** The "realistic bounds" of each variable. */
  predicate WithinBounds(e: EnvReading) {
    && 0.05 <= e.chlorA <= 5.0
    && 5.0 <= e.carbonPhyto <= 300.0
    && 20.0 <= e.poc <= 500.0
    && 10.0 <= e.sst <= 32.0
    && -6000.0 <= e.waterDepth <= -10.0
    && 0.0 <= e.eddySpeed <= 2.0
  }

  /** The final `np.clip` of every variable. */
  function ClipReading(raw: EnvReading): (r: EnvReading)
    ensures WithinBounds(r)
    ensures WithinBounds(raw) ==> r == raw
  {
    EnvReading(
      Clip(raw.chlorA, 0.05, 5.0),
      Clip(raw.carbonPhyto, 5.0, 300.0),
      Clip(raw.poc, 20.0, 500.0),
      Clip(raw.sst, 10.0, 32.0),
      Clip(raw.waterDepth, -6000.0, -10.0),
      Clip(raw.eddySpeed, 0.0, 2.0))
  }

  /** `extract_pace_environmental_data`. `model(d, lat, lon)` stands for the
      synthetic formulas applied to the PACE data of date `d`, the location
      and the random draws of this call: the reading is that output for the
      resolved date, clamped. */
  function ExtractPaceEnvironmentalData(
    lat: real, lon: real, paceDate: Timestamp, available: seq<Timestamp>,
    model: (Timestamp, real, real) -> EnvReading): (r: EnvReading)
    requires |available| > 0
    ensures WithinBounds(r)
    ensures paceDate in available && WithinBounds(model(paceDate, lat, lon)) ==>
      r == model(paceDate, lat, lon)
    ensures r == ClipReading(model(ResolvePaceDate(paceDate, available), lat, lon))
  {
    var d := ResolvePaceDate(paceDate, available);
    ClipReading(model(d, lat, lon))
  }

  // ---------------------------------------------------------------------
  // calculate_movement_features
  // ---------------------------------------------------------------------

  datatype Fix = Fix(latitude: real, longitude: real)

  /** Spherical geometry, outside the model: `distance` is the haversine step
      length in km, `turn` the turning angle at the middle of three fixes. */
  datatype Geodesy = Geodesy(distance: (Fix, Fix) -> real, turn: (Fix, Fix, Fix) -> real)

  /** One output row of `calculate_movement_features`. */
  datatype MovementRow = MovementRow(
    sharkId: string, latitude: real, longitude: real,
    datetime: Timestamp, paceDate: Timestamp, originalDatetime: Timestamp,
    stepLength: real, turningAngle: real, speedKmDay: real)

  function IdOf(o: MappedObservation): string { o.id }

  function SharkIdOf(m: MovementRow): string { m.sharkId }

  function PositionOf(o: MappedObservation): Fix { Fix(o.latitude, o.longitude) }

  /** `shark_df[shark_df["id"] == id]`, in frame order. */
  function Track(rows: seq<MappedObservation>, id: string): seq<MappedObservation> {
    Select(rows, IdOf, id)
  }

  /** The row for the step from `track[i - 1]` to `track[i]`. */
  function Step(track: seq<MappedObservation>, i: nat, geo: Geodesy): (r: MovementRow)
    requires 1 <= i < |track|
    ensures r.sharkId == track[i].id
    ensures r.latitude == track[i].latitude && r.longitude == track[i].longitude
    ensures r.datetime == track[i].datetime && r.paceDate == track[i].paceDate
    ensures r.originalDatetime == track[i].originalDatetime
    ensures r.stepLength == geo.distance(PositionOf(track[i - 1]), PositionOf(track[i]))
    ensures i == 1 ==> r.turningAngle == 0.0
    ensures i > 1 ==> r.turningAngle == geo.turn(PositionOf(track[i - 2]), PositionOf(track[i - 1]), PositionOf(track[i]))
    ensures track[i].datetime <= track[i - 1].datetime ==> r.speedKmDay == 0.0
    ensures track[i].datetime > track[i - 1].datetime ==>
      r.speedKmDay * ((track[i].datetime - track[i - 1].datetime) as real) == r.stepLength * (SecondsPerDay as real)
  {
    var curr, prev := track[i], track[i - 1];
    var stepLength := geo.distance(PositionOf(prev), PositionOf(curr));
    var timeDiff := (curr.datetime - prev.datetime) as real / (SecondsPerHour as real);
    var speed := if timeDiff > 0.0 then (stepLength / timeDiff) * 24.0 else 0.0;
    var turningAngle := if i > 1 then geo.turn(PositionOf(track[i - 2]), PositionOf(prev), PositionOf(curr)) else 0.0;
    MovementRow(curr.id, curr.latitude, curr.longitude, curr.datetime, curr.paceDate,
                curr.originalDatetime, stepLength, turningAngle, speed)
  }

  /** The rows for steps 1 .. n-1 of a track. */
  function StepsUpTo(track: seq<MappedObservation>, n: nat, geo: Geodesy): (r: seq<MovementRow>)
    requires n <= |track|
    ensures |r| == if n == 0 then 0 else n - 1
    ensures forall j :: 0 <= j < |r| ==> r[j] == Step(track, j + 1, geo)
  {
    if n <= 1 then [] else StepsUpTo(track, n - 1, geo) + [Step(track, n - 1, geo)]
  }

  /** The rows one shark contributes: none for fewer than 3 observations,
      otherwise one per consecutive pair. */
  function SharkSteps(track: seq<MappedObservation>, geo: Geodesy): (r: seq<MovementRow>)
    ensures |track| < 3 ==> r == []
    ensures |track| >= 3 ==> |r| == |track| - 1
    ensures forall j :: 0 <= j < |r| ==> r[j] == Step(track, j + 1, geo)
  {
    if |track| < 3 then [] else StepsUpTo(track, |track|, geo)
  }

  /** The rows of the sharks `ids`, shark after shark. */
  function StepsFor(rows: seq<MappedObservation>, ids: seq<string>, geo: Geodesy): seq<MovementRow> {
    if ids == [] then []
    else StepsFor(rows, ids[..|ids| - 1], geo) + SharkSteps(Track(rows, ids[|ids| - 1]), geo)
  }

  /** The frame `calculate_movement_features` returns. */
  function MovementFeatures(rows: seq<MappedObservation>, geo: Geodesy): seq<MovementRow> {
    StepsFor(rows, Distinct(Project(rows, IdOf)), geo)
  }

  /** The outer loop of `calculate_movement_features`: sharks in order of
      first appearance, each contributing its step rows. */
  method CalculateMovementFeatures(rows: seq<MappedObservation>, geo: Geodesy)
    returns (results: seq<MovementRow>)
    ensures results == MovementFeatures(rows, geo)
  {
    var ids := Distinct(Project(rows, IdOf));
    results := [];
    var k := 0;
    while k < |ids|
      invariant 0 <= k <= |ids|
      invariant results == StepsFor(rows, ids[..k], geo)
    {
      var sdata := Track(rows, ids[k]);
      var steps := SharkStepRows(sdata, geo);
      results := results + steps;
      assert ids[..k + 1][..k] == ids[..k];
      k := k + 1;
    }
    assert ids[..|ids|] == ids;
  }

  /** The inner loop: one row per consecutive pair of a shark's
      observations, or none when it has fewer than 3. */
  method SharkStepRows(sdata: seq<MappedObservation>, geo: Geodesy) returns (steps: seq<MovementRow>)
    ensures steps == SharkSteps(sdata, geo)
  {
    steps := [];
    if |sdata| < 3 {
      return;
    }
    var i := 1;
    while i < |sdata|
      invariant 1 <= i <= |sdata|
      invariant steps == StepsUpTo(sdata, i, geo)
    {
      steps := steps + [Step(sdata, i, geo)];
      i := i + 1;
    }
  }

  // ---------------------------------------------------------------------
  // Properties of the movement frame
  // ---------------------------------------------------------------------

  lemma {:induction false} StepsForSelect(rows: seq<MappedObservation>, ids: seq<string>, geo: Geodesy, id: string)
    requires NoDuplicates(ids)
    ensures Select(StepsFor(rows, ids, geo), SharkIdOf, id)
         == if id in ids then SharkSteps(Track(rows, id), geo) else []
  {
    if ids != [] {
      var init, last := ids[..|ids| - 1], ids[|ids| - 1];
      assert ids == init + [last];
      StepsForSelect(rows, init, geo, id);
      var group := SharkSteps(Track(rows, last), geo);
      SelectAppend(StepsFor(rows, init, geo), group, SharkIdOf, id);
      if last == id {
        SelectAll(group, SharkIdOf, id);
        assert id !in init;
      } else {
        SelectNone(group, SharkIdOf, id);
      }
    }
  }

  /** The rows of each shark in the movement frame are exactly the steps of
      its own track: none when it has fewer than 3 observations, one fewer
      than its observations otherwise. */
  lemma MovementRowsOfShark(rows: seq<MappedObservation>, geo: Geodesy, id: string)
    ensures Select(MovementFeatures(rows, geo), SharkIdOf, id) == SharkSteps(Track(rows, id), geo)
    ensures |Track(rows, id)| < 3 ==> Select(MovementFeatures(rows, geo), SharkIdOf, id) == []
    ensures |Track(rows, id)| >= 3 ==>
      |Select(MovementFeatures(rows, geo), SharkIdOf, id)| == |Track(rows, id)| - 1
  {
    var ids := Distinct(Project(rows, IdOf));
    StepsForSelect(rows, ids, geo, id);
    if id !in ids {
      SelectAbsent(rows, IdOf, id);
    }
  }

  /** Every row of the sharks `ids` belongs to one of them. */
  lemma {:induction false} StepsForMembers(rows: seq<MappedObservation>, ids: seq<string>, geo: Geodesy)
    ensures forall i :: 0 <= i < |StepsFor(rows, ids, geo)| ==> StepsFor(rows, ids, geo)[i].sharkId in ids
  {
    if ids != [] {
      var init, last := ids[..|ids| - 1], ids[|ids| - 1];
      StepsForMembers(rows, init, geo);
      var a := StepsFor(rows, init, geo);
      var g := SharkSteps(Track(rows, last), geo);
      var out := StepsFor(rows, ids, geo);
      assert out == a + g;
      StepsOfShark(rows, last, geo);
      forall i | 0 <= i < |out| ensures out[i].sharkId in ids {
        if i >= |a| {
          assert out[i] == g[i - |a|];
        } else {
          assert out[i] == a[i];
          assert out[i].sharkId in init;
        }
      }
    }
  }

  /** The rows of sharks listed in order of first appearance come in that order. */
  lemma {:induction false} StepsForOrder(rows: seq<MappedObservation>, ids: seq<string>, geo: Geodesy)
    requires forall a :: 0 <= a < |ids| ==> ids[a] in Project(rows, IdOf)
    requires forall a, b :: 0 <= a < b < |ids| ==>
      FirstIndex(Project(rows, IdOf), ids[a]) < FirstIndex(Project(rows, IdOf), ids[b])
    ensures FirstAppearanceOrder(Project(StepsFor(rows, ids, geo), SharkIdOf), Project(rows, IdOf))
  {
    if ids != [] {
      var init, last := ids[..|ids| - 1], ids[|ids| - 1];
      StepsForOrder(rows, init, geo);
      StepsForMembers(rows, init, geo);
      var a := StepsFor(rows, init, geo);
      var g := SharkSteps(Track(rows, last), geo);
      assert StepsFor(rows, ids, geo) == a + g;
      StepsOfShark(rows, last, geo);
      var keys, more := Project(a, SharkIdOf), Project(g, SharkIdOf);
      BeforeLast(keys, ids, Project(rows, IdOf));
      FirstAppearanceAppend(keys, more, Project(rows, IdOf), last);
      ProjectAppend(a, g, SharkIdOf);
    }
  }

  /** Every step row of a shark's track carries that shark's id. */
  lemma StepsOfShark(rows: seq<MappedObservation>, id: string, geo: Geodesy)
    ensures forall i :: 0 <= i < |SharkSteps(Track(rows, id), geo)| ==>
      SharkSteps(Track(rows, id), geo)[i].sharkId == id
  {
    var track := Track(rows, id);
    forall i | 0 <= i < |SharkSteps(track, geo)|
      ensures SharkSteps(track, geo)[i].sharkId == id
    {
      assert SharkSteps(track, geo)[i].sharkId == track[i + 1].id;
    }
  }

  /** The movement frame is grouped by shark, the groups in the order in
      which the sharks first appear in the input. */
  lemma MovementGroupedByFirstAppearance(rows: seq<MappedObservation>, geo: Geodesy)
    ensures forall i :: 0 <= i < |MovementFeatures(rows, geo)| ==>
      MovementFeatures(rows, geo)[i].sharkId in Project(rows, IdOf)
    ensures forall i, j :: 0 <= i < j < |MovementFeatures(rows, geo)| ==>
      FirstIndex(Project(rows, IdOf), MovementFeatures(rows, geo)[i].sharkId)
        <= FirstIndex(Project(rows, IdOf), MovementFeatures(rows, geo)[j].sharkId)
  {
    var p := Project(rows, IdOf);
    DistinctOrder(p);
    StepsForOrder(rows, Distinct(p), geo);
    var out := MovementFeatures(rows, geo);
    var keys := Project(out, SharkIdOf);
    assert FirstAppearanceOrder(keys, p);
    forall i | 0 <= i < |out|
      ensures out[i].sharkId in p
    {
      assert keys[i] == out[i].sharkId;
    }
    forall i, j | 0 <= i < j < |out|
      ensures FirstIndex(p, out[i].sharkId) <= FirstIndex(p, out[j].sharkId)
    {
      assert keys[i] == out[i].sharkId && keys[j] == out[j].sharkId;
    }
  }

  // ---------------------------------------------------------------------
  // preprocess_shark_data: shark limit, environmental pass, pipeline
  // ---------------------------------------------------------------------

  function PaceDateOf(o: MappedObservation): Timestamp { o.paceDate }

  /** Every step row of a shark carries the PACE date of one of the input rows. */
  lemma TrackDates(rows: seq<MappedObservation>, id: string, geo: Geodesy)
    ensures forall m :: m in SharkSteps(Track(rows, id), geo) ==> m.paceDate in Project(rows, PaceDateOf)
  {
    var track := Track(rows, id);
    var g := SharkSteps(track, geo);
    SelectSubset(rows, IdOf, id);
    forall m | m in g
      ensures m.paceDate in Project(rows, PaceDateOf)
    {
      var j :| 0 <= j < |g| && g[j] == m;
      assert m.paceDate == track[j + 1].paceDate;
      var k :| 0 <= k < |rows| && rows[k] == track[j + 1];
      assert Project(rows, PaceDateOf)[k] == m.paceDate;
    }
  }

  lemma {:induction false} StepsForDates(rows: seq<MappedObservation>, ids: seq<string>, geo: Geodesy)
    ensures forall m :: m in StepsFor(rows, ids, geo) ==> m.paceDate in Project(rows, PaceDateOf)
  {
    if ids != [] {
      var init, last := ids[..|ids| - 1], ids[|ids| - 1];
      StepsForDates(rows, init, geo);
      TrackDates(rows, last, geo);
      assert StepsFor(rows, ids, geo) == StepsFor(rows, init, geo) + SharkSteps(Track(rows, last), geo);
    }
  }

  /** `movement_df["shark_id"].unique()[:max_sharks]`; a `max_sharks` of 0
      is falsy and selects every shark. */
  function SelectedSharks(movement: seq<MovementRow>, maxSharks: nat): (ids: seq<string>)
    ensures NoDuplicates(ids)
    ensures forall k :: k in ids ==> k in Project(movement, SharkIdOf)
    ensures maxSharks == 0 ==> forall k :: k in Project(movement, SharkIdOf) ==> k in ids
    ensures maxSharks > 0 ==> |ids| == Min(maxSharks, |Distinct(Project(movement, SharkIdOf))|)
    ensures |ids| <= |Distinct(Project(movement, SharkIdOf))|
    ensures forall i :: 0 <= i < |ids| ==> ids[i] == Distinct(Project(movement, SharkIdOf))[i]
  {
    var all := Distinct(Project(movement, SharkIdOf));
    LeadingDistinct(all, maxSharks);
    Leading(all, maxSharks)
  }

  /** `if max_sharks:` keep only the rows of the selected sharks,
      `movement_df[movement_df["shark_id"].isin(selected_sharks)]`. */
  function LimitSharks(movement: seq<MovementRow>, maxSharks: nat): (r: seq<MovementRow>)
    ensures |r| <= |movement|
    ensures maxSharks == 0 ==> r == movement
    ensures forall m :: m in r ==> m in movement && m.sharkId in SelectedSharks(movement, maxSharks)
  {
    if maxSharks == 0 then movement
    else
      var ids := SelectedSharks(movement, maxSharks);
      var keep := (m: MovementRow) => m.sharkId in ids;
      var same := (m: MovementRow) => m;
      forall m ensures m in FilterMap(movement, keep, same) ==> m in movement && m.sharkId in ids {
        FilterMapMembership(movement, keep, same, m);
      }
      FilterMap(movement, keep, same)
  }

  /** A row survives the limit exactly when it is a movement row of a selected shark. */
  lemma LimitSharksRows(movement: seq<MovementRow>, maxSharks: nat, m: MovementRow)
    ensures m in LimitSharks(movement, maxSharks) <==>
      m in movement && m.sharkId in SelectedSharks(movement, maxSharks)
  {
    var ids := SelectedSharks(movement, maxSharks);
    FilterMapMembership(movement, (m: MovementRow) => m.sharkId in ids, (m: MovementRow) => m, m);
  }

  /** The limit keeps a selected shark's rows in their order and with their
      multiplicity, and drops every row of any other shark. */
  lemma LimitSharksPerShark(movement: seq<MovementRow>, maxSharks: nat, k: string)
    ensures Select(LimitSharks(movement, maxSharks), SharkIdOf, k) ==
      if k in SelectedSharks(movement, maxSharks) then Select(movement, SharkIdOf, k) else []
  {
    var ids := SelectedSharks(movement, maxSharks);
    if maxSharks == 0 {
      if k !in ids {
        SelectAbsent(movement, SharkIdOf, k);
      }
    } else {
      SelectFiltered(movement, (m: MovementRow) => m.sharkId in ids, (m: MovementRow) => m, SharkIdOf, k);
    }
  }

  /** A movement row with its six environmental columns. */
  datatype EnrichedRow = EnrichedRow(movement: MovementRow, env: EnvReading)

  /** The loop that fills in the environmental columns row by row.
      `draws(i)` stands for the synthetic models with the random draws of
      row i. */
  method AddEnvironmentalData(movement: seq<MovementRow>, available: seq<Timestamp>,
                              draws: nat -> (Timestamp, real, real) -> EnvReading)
    returns (enriched: seq<EnrichedRow>)
    requires |available| > 0
    ensures |enriched| == |movement|
    ensures forall i :: 0 <= i < |movement| ==>
      && enriched[i].movement == movement[i]
      && enriched[i].env == ExtractPaceEnvironmentalData(
           movement[i].latitude, movement[i].longitude, movement[i].paceDate, available, draws(i))
  {
    enriched := [];
    var i := 0;
    while i < |movement|
      invariant 0 <= i <= |movement|
      invariant |enriched| == i
      invariant forall j :: 0 <= j < i ==>
        && enriched[j].movement == movement[j]
        && enriched[j].env == ExtractPaceEnvironmentalData(
             movement[j].latitude, movement[j].longitude, movement[j].paceDate, available, draws(j))
    {
      var m := movement[i];
      enriched := enriched + [EnrichedRow(m, ExtractPaceEnvironmentalData(m.latitude, m.longitude, m.paceDate, available, draws(i)))];
      i := i + 1;
    }
  }

  /** What pandas raises when a column is read from a frame built from an
      empty list of rows, which has no columns at all. */
  const MissingIdColumn := "KeyError: 'id'"
  const MissingSharkIdColumn := "KeyError: 'shark_id'"

  /** The movement frame after the shark limit, for the sampled rows. */
  ghost function LimitedMovement(sample: seq<Observation>, paceDates: seq<Timestamp>, maxSharks: nat, geo: Geodesy): seq<MovementRow>
    requires paceDates != []
  {
    LimitSharks(MovementFeatures(RoundRobinMapping(sample, paceDates), geo), maxSharks)
  }

  /** `rows` are the `limited` rows in order, each carrying a loaded PACE
      date and the clamped output of its own draws for that date. */
  predicate EnvironmentFilled(rows: seq<EnrichedRow>, limited: seq<MovementRow>, paceDates: seq<Timestamp>,
                              draws: nat -> (Timestamp, real, real) -> EnvReading)
  {
    && |rows| == |limited|
    && forall i :: 0 <= i < |limited| ==>
         && rows[i].movement == limited[i]
         && limited[i].paceDate in paceDates
         && WithinBounds(rows[i].env)
         && rows[i].env == ClipReading(draws(i)(limited[i].paceDate, limited[i].latitude, limited[i].longitude))
  }

  /** `preprocess_shark_data` without its files: `sample` is the sampled
      frame and `paceDates` the dates of the loaded PACE files. Without PACE
      data the result is `None`. An empty sample makes the mapped frame
      column-less, so reading its "id" raises; likewise an empty movement
      frame when `max_sharks` is set. Otherwise the rows are the limited
      movement rows in order, each with the clamped model output for its
      own, loaded, PACE date. */
  method PreprocessSharkData(sample: seq<Observation>, paceDates: seq<Timestamp>, maxSharks: nat,
                             geo: Geodesy, draws: nat -> (Timestamp, real, real) -> EnvReading)
    returns (r: Outcome<Option<seq<EnrichedRow>>>)
    ensures r == Returned(None) <==> paceDates == []
    ensures r == Raised(MissingIdColumn) <==> paceDates != [] && sample == []
    ensures r == Raised(MissingSharkIdColumn) <==>
      paceDates != [] && sample != [] && maxSharks > 0 &&
      MovementFeatures(RoundRobinMapping(sample, paceDates), geo) == []
    ensures r.Raised? ==> r == Raised(MissingIdColumn) || r == Raised(MissingSharkIdColumn)
    ensures r.Returned? && r.value.Some? ==>
      paceDates != [] && EnvironmentFilled(r.value.value, LimitedMovement(sample, paceDates, maxSharks, geo), paceDates, draws)
  {
    if paceDates == [] {
      return Returned(None);
    }
    var mapped := MapSharkToPaceDates(sample, paceDates);
    RoundRobinDetermined(sample, paceDates, mapped);
    if mapped == [] {
      return Raised(MissingIdColumn);
    }
    var movement := CalculateMovementFeatures(mapped, geo);
    if maxSharks > 0 && movement == [] {
      return Raised(MissingSharkIdColumn);
    }
    var limited := LimitSharks(movement, maxSharks);
    var enriched := AddEnvironmentalData(limited, paceDates, draws);
    LoadedDates(sample, paceDates, mapped, geo, maxSharks);
    forall i | 0 <= i < |limited|
      ensures limited[i].paceDate in paceDates
    {
      assert limited[i] in limited;
    }
    assert EnvironmentFilled(enriched, limited, paceDates, draws);
    return Returned(Some(enriched));
  }

  /** Every row that survives the shark limit carries one of the PACE dates. */
  lemma LoadedDates(sample: seq<Observation>, paceDates: seq<Timestamp>, mapped: seq<MappedObservation>,
                    geo: Geodesy, maxSharks: nat)
    requires paceDates != []
    requires RoundRobin(sample, paceDates, mapped)
    ensures forall m :: m in LimitSharks(MovementFeatures(mapped, geo), maxSharks) ==> m.paceDate in paceDates
  {
    var movement := MovementFeatures(mapped, geo);
    RoundRobinRows(sample, paceDates, mapped);
    StepsForDates(mapped, Distinct(Project(mapped, IdOf)), geo);
    forall m | m in LimitSharks(movement, maxSharks)
      ensures m.paceDate in paceDates
    {
      LimitSharksRows(movement, maxSharks, m);
      var k :| 0 <= k < |mapped| && Project(mapped, PaceDateOf)[k] == m.paceDate;
      assert mapped[k].paceDate == m.paceDate;
    }
  }
}

=== FILE: s3_lambda.dfy ===
/** The S3 listing Lambda (predictive_model/py_files/s3_list_lambda.py):
    the bucket check, the choice among the three credential sources, the
    fallback chain of each credential field, the flattening of paginated
    listings, and the status code of every outcome. Secrets Manager, the
    OAuth exchange and the S3 paginator are outside calls and appear as
    the functions of a `Cloud` value. */
module S3ListLambda {
  import opened Wrappers
  import opened Json

  /** The Lambda event (a JSON object). */
  type Event = map<string, Value>
  /** The process environment. */
  type Environment = map<string, string>
  /** A credentials dict, as read from Secrets Manager or the OAuth flow. */
  type Credentials = map<string, Value>

  const BucketRequired := "bucket_name is required in event"
  const NoCredentials := "No valid credentials provided. Use ENV, secrets_manager_name, or provide s3_endpoint+edl_username+edl_password."

  /** `d.get(k)`. */
  function Get(d: map<string, Value>, k: string): Value {
    if k in d then d[k] else Null
  }

  /** `os.environ.get(name)`. */
  function EnvGet(env: Environment, name: string): Value {
    if name in env then Str(env[name]) else Null
  }

  /** Python's `a or b`. */
  function Or(a: Value, b: Value): (r: Value)
    ensures r == a || r == b
    ensures Truthy(r) <==> Truthy(a) || Truthy(b)
    ensures Truthy(a) ==> r == a
  {
    if Truthy(a) then a else b
  }

  /** `creds.get(camel) or creds.get(pascal) or os.environ.get(envName)`. */
  function CredentialField(creds: Credentials, camel: string, pascal: string, env: Environment, envName: string): (r: Value)
    ensures Truthy(Get(creds, camel)) ==> r == Get(creds, camel)
    ensures !Truthy(Get(creds, camel)) && Truthy(Get(creds, pascal)) ==> r == Get(creds, pascal)
    ensures !Truthy(Get(creds, camel)) && !Truthy(Get(creds, pascal)) ==> r == EnvGet(env, envName)
  {
    Or(Or(Get(creds, camel), Get(creds, pascal)), EnvGet(env, envName))
  }

  /** The first truthy value of the chain wins, and the field is set
      (truthy) exactly when some link of the chain is. */
  lemma CredentialFieldFirstTruthy(creds: Credentials, camel: string, pascal: string, env: Environment, envName: string)
    ensures var r := CredentialField(creds, camel, pascal, env, envName);
      (Truthy(r) <==> Truthy(Get(creds, camel)) || Truthy(Get(creds, pascal)) || Truthy(EnvGet(env, envName))) &&
      (r == Get(creds, camel) || r == Get(creds, pascal) || r == EnvGet(env, envName))
  {
  }

  /** The S3 client handed to the paginator: built from explicit
      credentials, or left to the default chain of the environment. */
  datatype S3Client =
    | FromCredentials(accessKeyId: Value, secretAccessKey: Value, sessionToken: Value, region: Value)
    | FromEnvironment(region: Value)

  function BuildS3ClientFromCreds(creds: Credentials, region: Value, env: Environment): (c: S3Client)
    ensures c.FromCredentials? && c.region == region
    ensures c.accessKeyId == CredentialField(creds, "accessKeyId", "AccessKeyId", env, "AWS_ACCESS_KEY_ID")
    ensures c.secretAccessKey == CredentialField(creds, "secretAccessKey", "SecretAccessKey", env, "AWS_SECRET_ACCESS_KEY")
    ensures c.sessionToken == CredentialField(creds, "sessionToken", "SessionToken", env, "AWS_SESSION_TOKEN")
  {
    FromCredentials(
      CredentialField(creds, "accessKeyId", "AccessKeyId", env, "AWS_ACCESS_KEY_ID"),
      CredentialField(creds, "secretAccessKey", "SecretAccessKey", env, "AWS_SECRET_ACCESS_KEY"),
      CredentialField(creds, "sessionToken", "SessionToken", env, "AWS_SESSION_TOKEN"),
      region)
  }

  // ---------------------------------------------------------------------
  // list_bucket_keys
  // ---------------------------------------------------------------------

  /** One page of `list_objects_v2`: its "Contents" (absent on an empty
      page), reduced to the object keys. */
  datatype Page = Page(contents: Option<seq<string>>)

  function PageKeys(p: Page): seq<string> {
    match p.contents
    case None => []
    case Some(ks) => ks
  }

  /** The keys of all pages, page after page. */
  function FlattenKeys(pages: seq<Page>): seq<string> {
    if pages == [] then [] else FlattenKeys(pages[..|pages| - 1]) + PageKeys(pages[|pages| - 1])
  }

  method ListBucketKeys(pages: seq<Page>) returns (keys: seq<string>)
    ensures keys == FlattenKeys(pages)
  {
    keys := [];
    var p := 0;
    while p < |pages|
      invariant 0 <= p <= |pages|
      invariant keys == FlattenKeys(pages[..p])
    {
      var contents := PageKeys(pages[p]);
      var o := 0;
      while o < |contents|
        invariant 0 <= o <= |contents|
        invariant keys == FlattenKeys(pages[..p]) + contents[..o]
      {
        keys := keys + [contents[o]];
        o := o + 1;
      }
      assert pages[..p + 1][..p] == pages[..p];
      assert contents[..|contents|] == contents;
      p := p + 1;
    }
    assert pages[..|pages|] == pages;
  }

  /** Flattening distributes over splitting the page sequence. */
  lemma {:induction false} FlattenKeysAppend(a: seq<Page>, b: seq<Page>)
    ensures FlattenKeys(a + b) == FlattenKeys(a) + FlattenKeys(b)
  {
    if b != [] {
      var b', z := b[..|b| - 1], b[|b| - 1];
      assert (a + b)[..|a + b| - 1] == a + b';
      FlattenKeysAppend(a, b');
    } else {
      assert a + b == a;
    }
  }

  /** A page without "Contents" contributes nothing. */
  lemma EmptyPageContributesNothing(a: seq<Page>, b: seq<Page>)
    ensures FlattenKeys(a + [Page(None)] + b) == FlattenKeys(a + b)
  {
    FlattenKeysAppend(a + [Page(None)], b);
    FlattenKeysAppend(a, b);
    assert (a + [Page(None)])[..|a|] == a;
  }

  /** Every listed key is the key of some object of some page, and every
      object of every page is listed. */
  lemma {:induction false} FlattenKeysMembership(pages: seq<Page>, k: string)
    ensures k in FlattenKeys(pages) <==> exists i :: 0 <= i < |pages| && k in PageKeys(pages[i])
  {
    if pages != [] {
      var init := pages[..|pages| - 1];
      FlattenKeysMembership(init, k);
      assert forall i :: 0 <= i < |init| ==> init[i] == pages[i];
      if exists i :: 0 <= i < |pages| && k in PageKeys(pages[i]) {
        var i :| 0 <= i < |pages| && k in PageKeys(pages[i]);
        if i < |init| {
          assert k in PageKeys(init[i]);
        }
      }
    }
  }

  // ---------------------------------------------------------------------
  // lambda_handler
  // ---------------------------------------------------------------------

  /** The outside world of the handler: reading a secret (name, region),
      the OAuth exchange on the event, and the pages of a listing
      (client, bucket, prefix). Each may raise. */
  datatype Cloud = Cloud(
    secret: (Value, Value) -> Outcome<Credentials>,
    oauth: Event -> Outcome<Credentials>,
    listing: (S3Client, Value, Value) -> Outcome<seq<Page>>)

  datatype CredentialSource = SecretsManager | EnvironmentKeys | OAuth | NoSource

  predicate EnvironmentKeysSet(env: Environment) {
    Truthy(EnvGet(env, "AWS_ACCESS_KEY_ID")) && Truthy(EnvGet(env, "AWS_SECRET_ACCESS_KEY"))
  }

  predicate OAuthFieldsPresent(event: Event) {
    "s3_endpoint" in event && "edl_username" in event && "edl_password" in event
  }

  /** The credential sources are tried in a fixed order. */
  function ChooseSource(event: Event, env: Environment): (src: CredentialSource)
    ensures src == SecretsManager <==> Truthy(Get(event, "secrets_manager_name"))
    ensures src == EnvironmentKeys <==> !Truthy(Get(event, "secrets_manager_name")) && EnvironmentKeysSet(env)
    ensures src == OAuth <==>
      !Truthy(Get(event, "secrets_manager_name")) && !EnvironmentKeysSet(env) && OAuthFieldsPresent(event)
    ensures src == NoSource <==>
      !Truthy(Get(event, "secrets_manager_name")) && !EnvironmentKeysSet(env) && !OAuthFieldsPresent(event)
  {
    if Truthy(Get(event, "secrets_manager_name")) then SecretsManager
    else if EnvironmentKeysSet(env) then EnvironmentKeys
    else if OAuthFieldsPresent(event) then OAuth
    else NoSource
  }

  /** The body of a response: `json.dumps({"error": ...})` or
      `json.dumps(keys)`. */
  datatype Body = ErrorBody(error: string) | KeyList(keys: seq<string>)

  datatype Response = Response(statusCode: int, body: Body)

  /** The client for a chosen source, or the exception raised getting it. */
  function ClientFor(src: CredentialSource, event: Event, env: Environment, cloud: Cloud, region: Value): (r: Outcome<S3Client>)
    requires src != NoSource
    ensures src == EnvironmentKeys ==> r == Returned(FromEnvironment(region))
    ensures src == SecretsManager && cloud.secret(Get(event, "secrets_manager_name"), region).Raised? ==>
      r == Raised(cloud.secret(Get(event, "secrets_manager_name"), region).message)
    ensures src == SecretsManager && cloud.secret(Get(event, "secrets_manager_name"), region).Returned? ==>
      r == Returned(BuildS3ClientFromCreds(cloud.secret(Get(event, "secrets_manager_name"), region).value, region, env))
    ensures src == OAuth && cloud.oauth(event).Raised? ==> r == Raised(cloud.oauth(event).message)
    ensures src == OAuth && cloud.oauth(event).Returned? ==>
      r == Returned(BuildS3ClientFromCreds(cloud.oauth(event).value, region, env))
  {
    match src
    case SecretsManager =>
      (match cloud.secret(Get(event, "secrets_manager_name"), region)
       case Raised(m) => Raised(m)
       case Returned(creds) => Returned(BuildS3ClientFromCreds(creds, region, env)))
    case EnvironmentKeys => Returned(FromEnvironment(region))
    case OAuth =>
      (match cloud.oauth(event)
       case Raised(m) => Raised(m)
       case Returned(creds) => Returned(BuildS3ClientFromCreds(creds, region, env)))
  }

  /** `event.get("prefix", "")`. */
  function Prefix(event: Event): Value {
    if "prefix" in event then event["prefix"] else Str("")
  }

  function LambdaHandler(event: Event, env: Environment, cloud: Cloud): (r: Response)
    ensures r.statusCode == 200 || r.statusCode == 400 || r.statusCode == 500
    ensures !Truthy(Get(event, "bucket_name")) ==> r == Response(400, ErrorBody(BucketRequired))
    ensures Truthy(Get(event, "bucket_name")) && ChooseSource(event, env) == NoSource ==>
      r == Response(400, ErrorBody(NoCredentials))
    ensures r.statusCode == 200 <==> r.body.KeyList?
    ensures r.statusCode == 500 ==> r.body.ErrorBody?
    ensures r.statusCode == 200 ==>
      Truthy(Get(event, "bucket_name")) && ChooseSource(event, env) != NoSource &&
      var client := ClientFor(ChooseSource(event, env), event, env, cloud, Get(event, "region_name"));
      client.Returned? &&
      var pages := cloud.listing(client.value, Get(event, "bucket_name"), Prefix(event));
      pages.Returned? && r.body.keys == FlattenKeys(pages.value)
    ensures Truthy(Get(event, "bucket_name")) && ChooseSource(event, env) != NoSource ==>
      var client := ClientFor(ChooseSource(event, env), event, env, cloud, Get(event, "region_name"));
      client.Returned? ==>
      var pages := cloud.listing(client.value, Get(event, "bucket_name"), Prefix(event));
      pages.Returned? ==> r == Response(200, KeyList(FlattenKeys(pages.value)))
    ensures r.statusCode == 400 ==>
      !Truthy(Get(event, "bucket_name")) || ChooseSource(event, env) == NoSource
    ensures r.statusCode == 500 ==>
      Truthy(Get(event, "bucket_name")) && ChooseSource(event, env) != NoSource &&
      var client := ClientFor(ChooseSource(event, env), event, env, cloud, Get(event, "region_name"));
      (client.Raised? && r.body == ErrorBody(client.message)) ||
      (client.Returned? &&
       var pages := cloud.listing(client.value, Get(event, "bucket_name"), Prefix(event));
       pages.Raised? && r.body == ErrorBody(pages.message))
  {
    var bucket := Get(event, "bucket_name");
    if !Truthy(bucket) then Response(400, ErrorBody(BucketRequired))
    else
      var region := Get(event, "region_name");
      var src := ChooseSource(event, env);
      if src == NoSource then Response(400, ErrorBody(NoCredentials))
      else
        match ClientFor(src, event, env, cloud, region)
        case Raised(m) => Response(500, ErrorBody(m))
        case Returned(client) =>
          match cloud.listing(client, bucket, Prefix(event))
          case Raised(m) => Response(500, ErrorBody(m))
          case Returned(pages) => Response(200, KeyList(FlattenKeys(pages)))
  }

  /** Without a bucket, nothing outside is consulted: the answer is the
      same for every environment and every cloud. */
  lemma BucketCheckedFirst(event: Event, env1: Environment, env2: Environment, c1: Cloud, c2: Cloud)
    requires !Truthy(Get(event, "bucket_name"))
    ensures LambdaHandler(event, env1, c1) == LambdaHandler(event, env2, c2)
  {
  }

  /** A named secret takes precedence: neither the environment keys nor the
      OAuth exchange is used to pick the source. */
  lemma SecretTakesPrecedence(event: Event, env: Environment, c1: Cloud, c2: Cloud)
    requires Truthy(Get(event, "secrets_manager_name"))
    requires c1.secret == c2.secret && c1.listing == c2.listing
    ensures LambdaHandler(event, env, c1) == LambdaHandler(event, env, c2)
  {
  }

  /** With both environment keys set (and no secret named), the OAuth
      exchange and Secrets Manager are never consulted. */
  lemma EnvironmentBeforeOAuth(event: Event, env: Environment, c1: Cloud, c2: Cloud)
    requires !Truthy(Get(event, "secrets_manager_name")) && EnvironmentKeysSet(env)
    requires c1.listing == c2.listing
    ensures LambdaHandler(event, env, c1) == LambdaHandler(event, env, c2)
  {
  }

  /** An exception while getting credentials or listing is reported as a
      500 carrying its message. */
  lemma ExceptionsAre500(event: Event, env: Environment, cloud: Cloud)
    requires Truthy(Get(event, "bucket_name")) && ChooseSource(event, env) != NoSource
    ensures var client := ClientFor(ChooseSource(event, env), event, env, cloud, Get(event, "region_name"));
      client.Raised? ==> LambdaHandler(event, env, cloud) == Response(500, ErrorBody(client.message))
    ensures var client := ClientFor(ChooseSource(event, env), event, env, cloud, Get(event, "region_name"));
      client.Returned? && cloud.listing(client.value, Get(event, "bucket_name"), Prefix(event)).Raised? ==>
      LambdaHandler(event, env, cloud) ==
        Response(500, ErrorBody(cloud.listing(client.value, Get(event, "bucket_name"), Prefix(event)).message))
  {
  }
}

=== FILE: seqs.dfy ===
/** Sequence operations shared by the pandas-style code of the pipeline:
    a column (`Project`), a boolean-mask filter on one key (`Select`) and
    `unique()` in order of first appearance (`Distinct`). */
module Seqs {

  /** The key of every element, in order (a column of a frame). */
  function Project<T, K>(s: seq<T>, key: T -> K): (r: seq<K>)
    ensures |r| == |s|
    ensures forall i :: 0 <= i < |s| ==> r[i] == key(s[i])
  {
    if s == [] then [] else Project(s[..|s| - 1], key) + [key(s[|s| - 1])]
  }

  predicate NoDuplicates<T(==)>(s: seq<T>) {
    forall i, j :: 0 <= i < j < |s| ==> s[i] != s[j]
  }

  /** The elements of `s` without repetitions, each where it first appears. */
  function Distinct<T(==)>(s: seq<T>): (r: seq<T>)
    ensures NoDuplicates(r)
    ensures forall i :: 0 <= i < |s| ==> s[i] in r
    ensures forall i :: 0 <= i < |r| ==> r[i] in s
    ensures |r| <= |s|
  {
    if s == [] then []
    else
      var r := Distinct(s[..|s| - 1]);
      assert s == s[..|s| - 1] + [s[|s| - 1]];
      if s[|s| - 1] in r then r else r + [s[|s| - 1]]
  }

  /** The position of the first occurrence of `x` in `s`. */
  function FirstIndex<T(==)>(s: seq<T>, x: T): (i: nat)
    requires x in s
    ensures i < |s| && s[i] == x && x !in s[..i]
  {
    if s[0] == x then 0
    else
      var j := FirstIndex(s[1..], x);
      assert s[..j + 1] == [s[0]] + s[1..][..j];
      1 + j
  }

  lemma FirstIndexIs<T>(s: seq<T>, x: T, i: nat)
    requires i < |s| && s[i] == x && x !in s[..i]
    ensures FirstIndex(s, x) == i
  {
  }

  /** Appending an element does not move the first occurrence of anything
      that was already present. */
  lemma FirstIndexAppend<T>(s: seq<T>, x: T, y: T)
    requires y in s
    ensures y in s + [x] && FirstIndex(s + [x], y) == FirstIndex(s, y)
  {
    var i := FirstIndex(s, y);
    assert (s + [x])[..i] == s[..i];
    FirstIndexIs(s + [x], y, i);
  }

  /** `Distinct` lists the elements of `s` in the order of their first
      appearance in `s`. */
  lemma {:induction false} DistinctOrder<T>(s: seq<T>)
    ensures forall a, b :: 0 <= a < b < |Distinct(s)| ==>
      FirstIndex(s, Distinct(s)[a]) < FirstIndex(s, Distinct(s)[b])
  {
    if s != [] {
      var p, x := s[..|s| - 1], s[|s| - 1];
      assert s == p + [x];
      DistinctOrder(p);
      var d := Distinct(p);
      forall y | y in d ensures FirstIndex(s, y) == FirstIndex(p, y) {
        FirstIndexAppend(p, x, y);
      }
      if x !in d {
        assert x !in p;
        assert s[|p|] == x && s[..|p|] == p;
        FirstIndexIs(s, x, |p|);
        forall y | y in d ensures FirstIndex(s, y) < |p| {
          FirstIndexAppend(p, x, y);
        }
      }
    }
  }

  /** The elements of `s` whose key is `k`, in order (`df[df[col] == k]`). */
  function Select<T, K(==)>(s: seq<T>, key: T -> K, k: K): (r: seq<T>)
    ensures |r| <= |s|
    ensures forall i :: 0 <= i < |r| ==> key(r[i]) == k
  {
    if s == [] then []
    else Select(s[..|s| - 1], key, k) + (if key(s[|s| - 1]) == k then [s[|s| - 1]] else [])
  }

  lemma {:induction false} SelectAppend<T, K>(s: seq<T>, t: seq<T>, key: T -> K, k: K)
    ensures Select(s + t, key, k) == Select(s, key, k) + Select(t, key, k)
  {
    if t != [] {
      var t', z := t[..|t| - 1], t[|t| - 1];
      assert (s + t)[..|s + t| - 1] == s + t';
      SelectAppend(s, t', key, k);
    } else {
      assert s + t == s;
    }
  }

  /** Nothing is selected by a key that no element has. */
  lemma {:induction false} SelectAbsent<T, K>(s: seq<T>, key: T -> K, k: K)
    requires k !in Project(s, key)
    ensures Select(s, key, k) == []
  {
    if s != [] {
      assert Project(s, key) == Project(s[..|s| - 1], key) + [key(s[|s| - 1])];
      SelectAbsent(s[..|s| - 1], key, k);
    }
  }

  /** Element `s[i]` is selected by its own key. */
  lemma {:induction false} SelectContains<T, K>(s: seq<T>, key: T -> K, i: nat)
    requires i < |s|
    ensures exists j :: 0 <= j < |Select(s, key, key(s[i]))| && Select(s, key, key(s[i]))[j] == s[i]
  {
    var p := s[..|s| - 1];
    if i == |s| - 1 {
      var r := Select(s, key, key(s[i]));
      assert r[|r| - 1] == s[i];
    } else {
      assert p[i] == s[i];
      SelectContains(p, key, i);
      var j :| 0 <= j < |Select(p, key, key(s[i]))| && Select(p, key, key(s[i]))[j] == s[i];
      assert Select(s, key, key(s[i]))[j] == s[i];
    }
  }

  /** The total number of elements selected by the keys `ks`. */
  function TotalSelected<T, K(==)>(s: seq<T>, key: T -> K, ks: seq<K>): nat {
    if ks == [] then 0
    else TotalSelected(s, key, ks[..|ks| - 1]) + |Select(s, key, ks[|ks| - 1])|
  }

  lemma {:induction false} TotalSelectedAppend<T, K>(s: seq<T>, x: T, key: T -> K, ks: seq<K>)
    requires NoDuplicates(ks)
    ensures TotalSelected(s + [x], key, ks)
         == TotalSelected(s, key, ks) + (if key(x) in ks then 1 else 0)
  {
    if ks != [] {
      var ks', k := ks[..|ks| - 1], ks[|ks| - 1];
      assert ks == ks' + [k];
      TotalSelectedAppend(s, x, key, ks');
      assert (s + [x])[..|s|] == s;
      assert key(x) in ks <==> key(x) in ks' || key(x) == k;
    }
  }

  /** Grouping by a key is a partition: the groups of the distinct keys
      hold exactly as many elements as the input. */
  lemma {:induction false} PartitionSize<T, K>(s: seq<T>, key: T -> K)
    ensures TotalSelected(s, key, Distinct(Project(s, key))) == |s|
  {
    if s != [] {
      var p, x := s[..|s| - 1], s[|s| - 1];
      assert s == p + [x];
      PartitionSize(p, key);
      var ps := Project(p, key);
      assert Project(s, key) == ps + [key(x)];
      assert Project(s, key)[..|Project(s, key)| - 1] == ps;
      var d := Distinct(ps);
      TotalSelectedAppend(p, x, key, d);
      if key(x) !in d {
        var d' := d + [key(x)];
        assert Distinct(Project(s, key)) == d';
        assert d'[..|d'| - 1] == d;
        SelectAbsent(p, key, key(x));
        TotalSelectedAppend(p, x, key, d);
      }
    }
  }

  /** A filter on a key that every element has keeps everything. */
  lemma {:induction false} SelectAll<T, K>(s: seq<T>, key: T -> K, k: K)
    requires forall i :: 0 <= i < |s| ==> key(s[i]) == k
    ensures Select(s, key, k) == s
  {
    if s != [] {
      SelectAll(s[..|s| - 1], key, k);
    }
  }

  /** A filter on a key that no element has keeps nothing. */
  lemma {:induction false} SelectNone<T, K>(s: seq<T>, key: T -> K, k: K)
    requires forall i :: 0 <= i < |s| ==> key(s[i]) != k
    ensures Select(s, key, k) == []
  {
    if s != [] {
      SelectNone(s[..|s| - 1], key, k);
    }
  }

  /** Every key of `keys` occurs in `p`, and the keys come in the order of
      their first occurrence in `p`. */
  ghost predicate FirstAppearanceOrder<K>(keys: seq<K>, p: seq<K>) {
    && (forall i :: 0 <= i < |keys| ==> keys[i] in p)
    && (forall i, j :: 0 <= i < j < |keys| ==> FirstIndex(p, keys[i]) <= FirstIndex(p, keys[j]))
  }

  /** A run of one key that first occurs after all keys so far extends the order. */
  lemma FirstAppearanceAppend<K>(keys: seq<K>, more: seq<K>, p: seq<K>, k: K)
    requires FirstAppearanceOrder(keys, p) && k in p
    requires forall i :: 0 <= i < |keys| ==> FirstIndex(p, keys[i]) < FirstIndex(p, k)
    requires forall i :: 0 <= i < |more| ==> more[i] == k
    ensures FirstAppearanceOrder(keys + more, p)
  {
    var all := keys + more;
    forall i, j | 0 <= i < j < |all|
      ensures FirstIndex(p, all[i]) <= FirstIndex(p, all[j])
    {
      if j < |keys| {
        assert all[i] == keys[i] && all[j] == keys[j];
      } else if i >= |keys| {
        assert all[i] == more[i - |keys|] && all[j] == more[j - |keys|];
      } else {
        assert all[i] == keys[i] && all[j] == more[j - |keys|];
      }
    }
  }

  /** Keys drawn from all but the last of `ids`, which occur in `p` in
      increasing order, first occur before the last of `ids`. */
  lemma BeforeLast<K>(keys: seq<K>, ids: seq<K>, p: seq<K>)
    requires |ids| > 0
    requires forall i :: 0 <= i < |keys| ==> keys[i] in ids[..|ids| - 1]
    requires forall a :: 0 <= a < |ids| ==> ids[a] in p
    requires forall a, b :: 0 <= a < b < |ids| ==> FirstIndex(p, ids[a]) < FirstIndex(p, ids[b])
    ensures forall i :: 0 <= i < |keys| ==> keys[i] in p && FirstIndex(p, keys[i]) < FirstIndex(p, ids[|ids| - 1])
  {
    forall i | 0 <= i < |keys|
      ensures keys[i] in p && FirstIndex(p, keys[i]) < FirstIndex(p, ids[|ids| - 1])
    {
      var m :| 0 <= m < |ids| - 1 && ids[..|ids| - 1][m] == keys[i];
      assert ids[m] == keys[i];
    }
  }

  /** The first `limit` elements of `s`, or all of them when `limit` is 0. */
  function Leading<T>(s: seq<T>, limit: nat): (r: seq<T>)
    ensures limit == 0 ==> r == s
    ensures limit > 0 ==> |r| == Min(limit, |s|)
    ensures forall i :: 0 <= i < |r| ==> i < |s| && r[i] == s[i]
  {
    if limit == 0 || |s| <= limit then s else s[..limit]
  }

  function Min(a: nat, b: nat): nat {
    if a < b then a else b
  }

  /** A leading part of a sequence without duplicates has none, and holds
      only elements of the whole. */
  lemma LeadingDistinct<T>(s: seq<T>, limit: nat)
    requires NoDuplicates(s)
    ensures NoDuplicates(Leading(s, limit))
    ensures forall k :: k in Leading(s, limit) ==> k in s
  {
    var r := Leading(s, limit);
    forall k | k in r ensures k in s {
      var i :| 0 <= i < |r| && r[i] == k;
      assert s[i] == k;
    }
  }

  /** A dict of lists filled in one pass (`groups.setdefault(key(x), []).append(view(x))`):
      the dict's keys in insertion order, and the dict. */
  function GroupBy<T, K(==), V>(s: seq<T>, key: T -> K, view: T -> V): (seq<K>, map<K, seq<V>>) {
    if s == [] then ([], map[])
    else
      var prev := GroupBy(s[..|s| - 1], key, view);
      var x := s[|s| - 1];
      if key(x) in prev.1 then (prev.0, prev.1[key(x) := prev.1[key(x)] + [view(x)]])
      else (prev.0 + [key(x)], prev.1[key(x) := [view(x)]])
  }

  /** `order` lists the distinct keys of `s` by first appearance, `groups`
      has a group for exactly the keys that occur in `s`, and each group
      holds the views of the elements with that key, in input order. */
  ghost predicate IsGrouping<T, K(!new), V>(s: seq<T>, key: T -> K, view: T -> V, order: seq<K>, groups: map<K, seq<V>>) {
    && order == Distinct(Project(s, key))
    && (forall k :: k in groups <==> k in Project(s, key))
    && (forall k :: k in groups ==> groups[k] == Project(Select(s, key, k), view))
  }

  /** The one-pass dict is the grouping of the input by key. */
  lemma GroupByIsGrouping<T, K(!new), V>(s: seq<T>, key: T -> K, view: T -> V)
    ensures IsGrouping(s, key, view, GroupBy(s, key, view).0, GroupBy(s, key, view).1)
  {
    GroupByKeys(s, key, view);
    GroupByOrder(s, key, view);
    GroupByGroups(s, key, view);
  }

  /** The dict has a group for exactly the keys that occur. */
  lemma {:induction false} GroupByKeys<T, K(!new), V>(s: seq<T>, key: T -> K, view: T -> V)
    ensures forall k :: k in GroupBy(s, key, view).1 <==> k in Project(s, key)
  {
    if s != [] {
      GroupByKeys(s[..|s| - 1], key, view);
      assert Project(s, key) == Project(s[..|s| - 1], key) + [key(s[|s| - 1])];
    }
  }

  /** The dict's keys are inserted in order of first appearance. */
  lemma {:induction false} GroupByOrder<T, K(!new), V>(s: seq<T>, key: T -> K, view: T -> V)
    ensures GroupBy(s, key, view).0 == Distinct(Project(s, key))
  {
    if s != [] {
      var p := s[..|s| - 1];
      GroupByOrder(p, key, view);
      GroupByKeys(p, key, view);
      assert Project(s, key)[..|s| - 1] == Project(p, key);
      var x := key(s[|s| - 1]);
      if x in Project(p, key) {
        var i :| 0 <= i < |Project(p, key)| && Project(p, key)[i] == x;
        assert x in Distinct(Project(p, key));
      }
    }
  }

  /** Each group holds the views of its key's elements, in input order. */
  lemma {:induction false} GroupByGroups<T, K(!new), V>(s: seq<T>, key: T -> K, view: T -> V)
    ensures forall k :: k in GroupBy(s, key, view).1 ==>
      GroupBy(s, key, view).1[k] == Project(Select(s, key, k), view)
  {
    if s != [] {
      var p := s[..|s| - 1];
      GroupByGroups(p, key, view);
      GroupByKeys(p, key, view);
      var x := key(s[|s| - 1]);
      if x !in GroupBy(p, key, view).1 {
        SelectAbsent(p, key, x);
      }
      var groups := GroupBy(s, key, view).1;
      forall k | k in groups
        ensures groups[k] == Project(Select(s, key, k), view)
      {
        GroupSnocAt(s, key, view, k);
        if k != x {
          assert groups[k] == GroupBy(p, key, view).1[k];
        }
      }
    }
  }

  /** The last element's view joins its own group only. */
  lemma GroupSnocAt<T, K, V>(s: seq<T>, key: T -> K, view: T -> V, k: K)
    requires |s| > 0
    ensures Project(Select(s, key, k), view) ==
      Project(Select(s[..|s| - 1], key, k), view) + (if key(s[|s| - 1]) == k then [view(s[|s| - 1])] else [])
  {
    var x := s[|s| - 1];
    ProjectAppend(Select(s[..|s| - 1], key, k), if key(x) == k then [x] else [], view);
  }

  lemma ProjectAppend<T, K>(a: seq<T>, b: seq<T>, key: T -> K)
    ensures Project(a + b, key) == Project(a, key) + Project(b, key)
  {
    assert forall i :: 0 <= i < |a + b| ==> Project(a + b, key)[i] == (Project(a, key) + Project(b, key))[i];
  }

  /** `[make(x) for x in s if keep(x)]`; `make` need only be defined where
      `keep` holds. */
  function FilterMap<T, R>(s: seq<T>, keep: T -> bool, make: T --> R): (r: seq<R>)
    requires forall i :: 0 <= i < |s| && keep(s[i]) ==> make.requires(s[i])
    ensures |r| <= |s|
  {
    if s == [] then []
    else
      var x := s[|s| - 1];
      FilterMap(s[..|s| - 1], keep, make) + (if keep(x) then [make(x)] else [])
  }

  /** Nothing is produced exactly when nothing is kept. */
  lemma {:induction false} FilterMapEmpty<T, R>(s: seq<T>, keep: T -> bool, make: T --> R)
    requires forall i :: 0 <= i < |s| && keep(s[i]) ==> make.requires(s[i])
    ensures FilterMap(s, keep, make) == [] <==> forall i :: 0 <= i < |s| ==> !keep(s[i])
  {
    if s != [] {
      FilterMapEmpty(s[..|s| - 1], keep, make);
      assert forall i :: 0 <= i < |s| - 1 ==> s[..|s| - 1][i] == s[i];
    }
  }

  /** `y` is produced exactly when some kept element makes it. */
  lemma {:induction false} FilterMapMembership<T, R>(s: seq<T>, keep: T -> bool, make: T --> R, y: R)
    requires forall i :: 0 <= i < |s| && keep(s[i]) ==> make.requires(s[i])
    ensures y in FilterMap(s, keep, make) <==> exists i :: 0 <= i < |s| && keep(s[i]) && make(s[i]) == y
  {
    if s != [] {
      var p, x := s[..|s| - 1], s[|s| - 1];
      FilterMapMembership(p, keep, make, y);
      assert forall i :: 0 <= i < |p| ==> p[i] == s[i];
      if exists i :: 0 <= i < |s| && keep(s[i]) && make(s[i]) == y {
        var i :| 0 <= i < |s| && keep(s[i]) && make(s[i]) == y;
        if i < |p| {
          assert keep(p[i]) && make(p[i]) == y;
        }
      }
    }
  }

  /** A key that occurs selects at least one element. */
  lemma SelectNonEmpty<T, K>(s: seq<T>, key: T -> K, k: K)
    requires k in Project(s, key)
    ensures Select(s, key, k) != []
  {
    var i :| 0 <= i < |s| && Project(s, key)[i] == k;
    SelectContains(s, key, i);
  }

  /** `f` applied to every element, in order. */
  function MapSeq<T, R>(s: seq<T>, f: T --> R): (r: seq<R>)
    requires forall i :: 0 <= i < |s| ==> f.requires(s[i])
    ensures |r| == |s|
    ensures forall i :: 0 <= i < |s| ==> r[i] == f(s[i])
  {
    if s == [] then [] else MapSeq(s[..|s| - 1], f) + [f(s[|s| - 1])]
  }

  /** Every element of a permutation of `b` occurs in `b`. */
  lemma PermutationMember<T>(a: seq<T>, b: seq<T>, k: nat) returns (i: nat)
    requires multiset(a) == multiset(b) && k < |a|
    ensures i < |b| && b[i] == a[k]
  {
    assert a[k] in multiset(b);
    i :| i < |b| && b[i] == a[k];
  }

  /** An element is selected exactly when it occurs and has the key. */
  lemma SelectMembership<T, K>(s: seq<T>, key: T -> K, k: K, x: T)
    ensures x in Select(s, key, k) <==> x in s && key(x) == k
  {
    SelectSubset(s, key, k);
    if x in s && key(x) == k {
      var i :| 0 <= i < |s| && s[i] == x;
      SelectContains(s, key, i);
    }
  }

  /** Selecting keeps only elements of the input. */
  lemma {:induction false} SelectSubset<T, K>(s: seq<T>, key: T -> K, k: K)
    ensures forall i :: 0 <= i < |Select(s, key, k)| ==> Select(s, key, k)[i] in s
  {
    if s != [] {
      var init := s[..|s| - 1];
      SelectSubset(init, key, k);
      assert forall x :: x in init ==> x in s;
    }
  }

  /** A filter that keeps all or none of the elements with key `k` selects,
      for `k`, the whole of `Select(s, key, k)` in order, or nothing. */
  lemma {:induction false} SelectFiltered<T, K>(s: seq<T>, keep: T -> bool, same: T -> T, key: T -> K, k: K)
    requires forall x :: same(x) == x
    ensures (forall i :: 0 <= i < |s| && key(s[i]) == k ==> keep(s[i])) ==>
      Select(FilterMap(s, keep, same), key, k) == Select(s, key, k)
    ensures (forall i :: 0 <= i < |s| && key(s[i]) == k ==> !keep(s[i])) ==>
      Select(FilterMap(s, keep, same), key, k) == []
  {
    if s != [] {
      var p, x := s[..|s| - 1], s[|s| - 1];
      assert forall i :: 0 <= i < |p| ==> p[i] == s[i];
      SelectFiltered(p, keep, same, key, k);
      var tail := if keep(x) then [same(x)] else [];
      SelectAppend(FilterMap(p, keep, same), tail, key, k);
      if keep(x) {
        assert tail[..0] == [];
      }
    }
  }
}

=== FILE: wrappers.dfy ===
/** Optional values and the outcome of a call into code outside the model. */
module Wrappers {

  datatype Option<+T> = None | Some(value: T)

  /** What an external call (network, cloud SDK, model API) did: returned a
      value, or raised an exception whose `str()` is `message`. */
  datatype Outcome<+T> = Returned(value: T) | Raised(message: string)
}
